=== FILE: README.md ===
# SystemAudioSpectrum core, modelled in Dafny

SystemAudioSpectrum captures what the system plays through WASAPI loopback. It downmixes each packet to mono and pushes the samples into a bounded ring buffer. An analysis worker pulls hops of 512 samples from the buffer. It slides a 2048-sample window, applies a Hann window and an FFT, and reduces the magnitudes to 20 log-spaced bands normalised to [0, 1]. A render worker keeps the latest bands with decaying peak markers and lays out one bar per band.

The model covers that data path. It has five modules plus a shared helper module:

- `Numerics` holds the C++ arithmetic the core relies on. `/` on `int` truncates toward zero and a float-to-int cast drops the fraction, unlike Dafny's Euclidean division and `.Floor`. It also has `std::floor`/`std::ceil` followed by a cast, `std::clamp`, and left-to-right sums.
- `RingBuffers` models `RingBuffer` in three layers:
  - the abstract FIFO `Ring.Contents()`, the unread samples oldest first;
  - the value `Ring(slots, head, tail)`, with N+1 slots and indices advancing modulo N+1, whose operations are pure functions proved to act on the FIFO;
  - the class `RingBuffer` over an array, whose methods are proved equal to those functions.
- `Bands` models `FFTProcessor::computeBands`: bin ranges per band, band means, and normalisation by the frame maximum with square-root companding.
- `Analysis` models one iteration of `FFTProcessor::run`: a short read, or a window slide followed by magnitudes of the bins below Nyquist and publication of the bands.
- `Rendering` models the renderer state: `setBands`, `setViewportSize`, and `renderFrame` as a tick that decays the peaks and computes the bar geometry.
- `Capture` models `convertToMonoFloat` and the silent-packet/write branch of `captureLoop`.

Some functions the core calls are parameters:

- the square root (`sqrt`, constrained by `Bands.SqrtLike`: it fixes 0 and 1 and is monotone on non-negative reals);
- the real FFT (`fft`, constrained by `Analysis.TransformShape`: it returns 1025 bins);
- the Hann coefficients (`hann`, 2048 reals);
- the 20 edge frequencies that `std::pow` computes, held in `edges[1..21]` (`edges`, 21 reals; `edges[0]` is never read because band 0 starts at 0 Hz).

Two behaviours of the code are easy to miss:

- The bands end at the upper edge of band 19. With a 48 kHz stream the bins above 20 kHz are in no band, so the bands do not cover every bin below Nyquist.
- A short read is not put back. `read` removes whatever it returns, so when fewer than 512 samples are available the worker discards them and keeps its window (`Analysis.Cycle`).

## Model

| member | source | states |
|---|---|---|
| `Numerics.Clamp` | src/FFTProcessor.cpp:63 | the result lies in [lo, hi], and equals x when x is already in range |
| `Numerics.Floor` | src/FFTProcessor.cpp:46 | the largest integer not above x |
| `Numerics.Ceil` | src/FFTProcessor.cpp:47 | the smallest integer not below x |
| `Numerics.TruncDiv` | src/AudioCapture.cpp:148 | C++ quotient toward zero: for a >= 0 the largest multiple of b not above a; for a < 0 the smallest not below a |
| `Numerics.TruncToInt` | src/Renderer.cpp:101-102 | float-to-int cast: same sign as x, less than one unit closer to zero |
| `RingBuffers.Create` | src/RingBuffer.h:10-13 | capacity N gives N+1 slots, reports capacity N, is empty, and has N free places |
| `RingBuffers.RingBuffer.constructor` | src/RingBuffer.h:10-11 | the array-backed buffer starts in the state `Create` gives: N+1 zero slots, both indices 0 |
| `RingBuffers.Ring.Capacity` | src/RingBuffer.h:13 | the capacity is below the slot count (one slot stays free); otherwise it is the definition |
| `RingBuffers.Ring.Distance` | src/RingBuffer.h:55-57 | the distance is below the slot count, and walking that many steps from `from`, modulo the slot count, lands on `to` |
| `RingBuffers.Ring.AvailableToRead` | src/RingBuffer.h:20-23 | at most the capacity, and advancing tail by it reaches head |
| `RingBuffers.Ring.AvailableToWrite` | src/RingBuffer.h:25-28 | at most the capacity, and 0 exactly when head sits one slot behind tail (the buffer is full) |
| `RingBuffers.Ring.Push` | src/RingBuffer.h:36-37 | the sample is stored at head, every other slot and tail are kept, and the state stays valid |
| `RingBuffers.Ring.Pop` | src/RingBuffer.h:48-49 | yields the slot at tail and keeps the slots and head; the state stays valid |
| `RingBuffers.Ring.Clear` | src/RingBuffer.h:15-18 | the buffer becomes empty with its full capacity free; the capacity is unchanged |
| `RingBuffers.CountsAddUp` | src/RingBuffer.h:20-28 | readable plus writable equals the capacity in every valid state |
| `RingBuffers.Ring.DistanceCases` | src/RingBuffer.h:55-57 | the modulo distance is to - from without wrap and to + size - from with it |
| `RingBuffers.Ring.PushAppends` | src/RingBuffer.h:36-37 | one store-and-advance with room left appends the sample to the FIFO and uses one free place |
| `RingBuffers.Ring.PopTakesOldest` | src/RingBuffer.h:48-49 | one take-and-advance on a non-empty buffer yields the oldest sample and leaves the rest in order |
| `RingBuffers.Ring.WriteAll` | src/RingBuffer.h:35-38 | the write loop over samples that fit appends exactly those samples to the FIFO |
| `RingBuffers.Ring.ReadAll` | src/RingBuffer.h:47-50 | the read loop run n times returns the n oldest samples and leaves the rest; storage and head are untouched |
| `RingBuffers.Ring.ReadAllSnoc` | src/RingBuffer.h:47-50 | reading n+1 samples is reading n and then taking one more, the loop's own order |
| `RingBuffers.Ring.Write` | src/RingBuffer.h:30-40 | returns min(count, free places); those leading samples are appended and the rest dropped; unread samples are kept; an empty write changes nothing |
| `RingBuffers.Ring.Read` | src/RingBuffer.h:42-52 | returns min(maxCount, readable) samples, the oldest ones in FIFO order, and removes exactly those; maxCount 0 changes nothing |
| `RingBuffers.Apply` | src/RingBuffer.h:15-52 | every buffer operation keeps a valid state with the same number of slots |
| `RingBuffers.Run` | src/RingBuffer.h:15-52 | any sequence of operations keeps a valid state with the same number of slots |
| `RingBuffers.ReachableInvariant` | src/RingBuffer.h:10-57 | after construction with capacity N and any operations: N+1 slots, head and tail below N+1, readable plus writable equals N |
| `RingBuffers.WorkedExample` | src/RingBuffer.h:30-52 | capacity 4: writing 1..5 stores 4; reading 2 yields [1, 2]; 2 remain readable |
| `RingBuffers.RingBuffer.Clear` | src/RingBuffer.h:15-18 | the array-backed buffer ends in the state `Ring.Clear` gives |
| `RingBuffers.RingBuffer.AvailableToRead` | src/RingBuffer.h:20-23 | the array-backed count equals the model's readable count |
| `RingBuffers.RingBuffer.Capacity` | src/RingBuffer.h:13 | the array-backed capacity equals the model's capacity |
| `RingBuffers.RingBuffer.DistanceNoLock` | src/RingBuffer.h:55-57 | the array-backed index distance equals the model's modulo distance |
| `RingBuffers.RingBuffer.AvailableToWrite` | src/RingBuffer.h:25-28 | the array-backed count equals the model's writable count |
| `RingBuffers.RingBuffer.Write` | src/RingBuffer.h:30-40 | the array loop leaves the state and count `Ring.Write` gives, so the written samples are appended to the FIFO |
| `RingBuffers.RingBuffer.Read` | src/RingBuffer.h:42-52 | the array loop leaves the state and output `Ring.Read` gives, so the output is the oldest unread samples |
| `RingBuffers.RingBuffer.StoreAll` | src/RingBuffer.h:35-38 | the array write loop leaves the state `Ring.WriteAll` gives |
| `RingBuffers.RingBuffer.TakeAll` | src/RingBuffer.h:47-50 | the array read loop leaves the state and output `Ring.ReadAll` gives |
| `Bands.BandBins` | src/FFTProcessor.cpp:41-49 | every band gets a non-empty bin range within the available bins; band 0 starts at bin 0 |
| `Bands.LowerEdge` | src/FFTProcessor.cpp:44 | band 0 starts at 0 Hz; band b > 0 starts at edges[b], the same value that ends band b-1 |
| `Bands.BandBinsMatchEdges` | src/FFTProcessor.cpp:46-49 | where no clamp binds, lo = floor(f0 / binHz) and hi = ceil(f1 / binHz): bin lo contains f0, and bin hi-1 is the first bin whose upper end reaches f1 |
| `Bands.NoGapBetweenBands` | src/FFTProcessor.cpp:44-49 | band b ends no earlier than band b+1 starts, so no bin between them is skipped |
| `Bands.BandStartsIncrease` | src/FFTProcessor.cpp:44-48 | with increasing non-negative edges the band start bins are non-decreasing |
| `Bands.Mean` | src/FFTProcessor.cpp:51-53 | the mean times the bin count equals the sum of the magnitudes in the range |
| `Bands.RawBands` | src/FFTProcessor.cpp:41-55 | 20 values; each times its band's bin count equals the sum of the magnitudes in that band's bins |
| `Bands.RawBandWithinBins` | src/FFTProcessor.cpp:51-53 | a band's value lies between any lower and upper bound of the magnitudes in its bins, as a mean does |
| `Bands.RawBandsNonNegative` | src/FFTProcessor.cpp:51-54 | non-negative magnitudes give non-negative bands |
| `Bands.FlatSpectrumFlatBands` | src/FFTProcessor.cpp:51-54 | a spectrum constant at x gives every band the value x |
| `Bands.RunningMax` | src/FFTProcessor.cpp:58-59 | the running maximum bounds the start value and every band, and equals one of them |
| `Bands.FrameMax` | src/FFTProcessor.cpp:58-59 | the normalisation divisor is at least 1e-6 and at least every band, and it is either 1e-6 or one of the bands: the larger of 1e-6 and the loudest band |
| `Bands.NormalizeOne` | src/FFTProcessor.cpp:60-63 | the result is in [0, 1]; a value between 0 and the divisor gives sqrt(value / divisor), a value at or above the divisor gives 1, and a zero gives 0 |
| `Bands.Normalize` | src/FFTProcessor.cpp:60-64 | normalisation keeps the length and puts every value in [0, 1]; `Bands.NormalizeValue` gives each value |
| `Bands.ComputeBands` | src/FFTProcessor.cpp:31-65 | 20 bands, each in [0, 1]; `Bands.ComputeBandsValue` gives each value |
| `Bands.NormalizeZero` | src/FFTProcessor.cpp:58-64 | all-zero bands normalise to all zeros |
| `Bands.ComputeBandsSilence` | src/FFTProcessor.cpp:31-65 | a spectrum of zeros gives 20 zero bands |
| `Bands.CompandedInUnit` | src/FFTProcessor.cpp:62-63 | sqrt of a share between 0 and 1 lies in [0, 1], so the clamp does not change it; a share of 1 or more compands to at least 1 |
| `Bands.NormalizeValue` | src/FFTProcessor.cpp:58-64 | with non-negative bands, band i becomes sqrt(band i / frame maximum) |
| `Bands.ComputeBandsValue` | src/FFTProcessor.cpp:31-65 | with non-negative magnitudes, band b is sqrt(mean of its bins / the larger of 1e-6 and the loudest band mean) |
| `Bands.NormalizeLoudestIsOne` | src/FFTProcessor.cpp:58-64 | a loudest band at or above 1e-6 becomes exactly 1 |
| `Bands.NormalizeKeepsOrder` | src/FFTProcessor.cpp:60-64 | normalisation keeps the order of non-negative bands |
| `Bands.NormalizeKeepsTies` | src/FFTProcessor.cpp:60-64 | equal bands stay equal |
| `Analysis.RotateLeft` | src/FFTProcessor.cpp:89 | left rotation: entry i takes the entry k places later, wrapping around |
| `Analysis.OverwriteTail` | src/FFTProcessor.cpp:90 | the last entries become the hop and the others are kept |
| `Analysis.Slide` | src/FFTProcessor.cpp:89-90 | the new window is the old window without its oldest hop, followed by the new hop |
| `Analysis.FourHopsFillWindow` | src/FFTProcessor.cpp:88-90 | four hops in a row replace the whole window with those hops in arrival order |
| `Analysis.Windowed` | src/FFTProcessor.cpp:92 | 2048 values; sample i is multiplied by window coefficient i |
| `Analysis.Magnitudes` | src/FFTProcessor.cpp:95-99 | 1024 values; magnitude k is sqrt of the power of bin k, for each bin below Nyquist |
| `Analysis.MagnitudesFollowPower` | src/FFTProcessor.cpp:95-99 | a bin with more power never has a smaller magnitude; zero power gives 0 and unit power gives 1 |
| `Analysis.MagnitudesNonNegative` | src/FFTProcessor.cpp:95-99 | every magnitude is non-negative |
| `Analysis.NyquistExcluded` | src/FFTProcessor.cpp:95-99 | spectra differing only in the Nyquist bin give the same magnitudes |
| `Analysis.Cycle` | src/FFTProcessor.cpp:79-103 | short read: window kept, nothing published, the partial hop lost; full hop: the window slides by exactly those 512 oldest samples, the ring keeps the rest, and the published value is the 20 bands of the new window's windowed transform, each in [0, 1] |
| `Analysis.InitialWindow` | src/FFTProcessor.cpp:68 | the worker starts from 2048 zeros |
| `Rendering.Init` | src/Renderer.cpp:11-16 | 20 zero bands and peaks, an 800x400 viewport and a blank frame of that size |
| `Rendering.SetBands` | src/Renderer.cpp:27-31 | bands replaced; peaks kept when the count is unchanged, otherwise zeros of the new count; nothing else changes |
| `Rendering.SetViewportSize` | src/Renderer.cpp:33-40 | a new, strictly positive size replaces the old one and blanks the frame at that size; an equal or non-positive request leaves the whole state unchanged; bands and peaks are never touched |
| `Rendering.SetViewportSizeIdempotent` | src/Renderer.cpp:33-40 | repeating a resize changes nothing more |
| `Rendering.SetViewportSizeKeepsPositive` | src/Renderer.cpp:35 | a positive viewport stays positive whatever is requested |
| `Rendering.Gap` | src/Renderer.cpp:80 | the gap is at least one column; when width >= 20·numBars it is floor(width / (20·numBars)), so numBars gaps take at most a twentieth of the width; below that it is 1 |
| `Rendering.BarWidth` | src/Renderer.cpp:81 | bar width is at least 2; whenever bars of three columns fit, it is the largest width for which numBars bars and numBars+1 gaps fit in the viewport width |
| `Rendering.DefaultLayout` | src/Renderer.cpp:80-81 | the default 800-column viewport with 20 bands gets a 2-column gap and 37-column bars |
| `Rendering.BarX` | src/Renderer.cpp:104 | the first bar starts one gap in; bar i ends one gap before where bar i+1 starts |
| `Rendering.BarHeight` | src/Renderer.cpp:101 | for a non-negative scaled value, the number of whole rows in v·(h-10) |
| `Rendering.BarHeightMonotone` | src/Renderer.cpp:101-102 | a larger value never gives a lower bar |
| `Rendering.BarsSeparated` | src/Renderer.cpp:104 | each bar ends at least one gap before any later bar starts |
| `Rendering.BarHeightBounds` | src/Renderer.cpp:101 | for a viewport at least 10 rows high, a value in [0, 1] gives a height between 0 and h-10, so the top 10 rows stay free |
| `Rendering.DrawBar` | src/Renderer.cpp:101-105 | the bar starts at `BarX` with the computed width, its top is h minus the band's `BarHeight`, its peak line is h minus the peak's `BarHeight`, and the peak line is at or above the bar top whenever the peak is at least the band |
| `Rendering.DecayPeak` | src/Renderer.cpp:86-89 | the new peak is the larger of the band and the old peak minus 0.02 |
| `Rendering.DecayPeaks` | src/Renderer.cpp:87-90 | every peak gets that step with its own band |
| `Rendering.Tick` | src/Renderer.cpp:60-123 | no bands: blank frame, peaks unchanged; otherwise the peaks are first reset to zeros if their count differs, then each becomes max(peak - 0.02, band), and bar i is `DrawBar` of band i and its new peak with the computed gap and width |
| `Rendering.TickLayout` | src/Renderer.cpp:78-117 | the bars of a frame never overlap, and for a viewport at least 10 rows high with bands in [0, 1] none reaches the top 10 rows |
| `Rendering.Ticks` | src/Renderer.cpp:125-132 | repeated ticks keep bands and viewport, and keep peaks parallel to bands |
| `Rendering.SilentDecay` | src/Renderer.cpp:86-89 | with silent bands each peak is max(0, p - 0.02 k) after k ticks |
| `Rendering.FullScaleLatches` | src/Renderer.cpp:89 | a full-scale band lifts its peak to exactly 1 |
| `Rendering.FullScaleThenSilence` | src/Renderer.cpp:86-89 | one full-scale tick followed by k silent ones leaves the peak at max(0, 1 - 0.02 k) |
| `Rendering.RunKeepsGood` | src/Renderer.cpp:27-123 | with bands in [0, 1], any sequence of operations keeps peaks parallel to bands and in [0, 1], and the viewport positive |
| `Rendering.ReachableFromInit` | src/Renderer.cpp:11-123 | every state reachable from construction satisfies those invariants |
| `Capture.ConvertToMonoFloat` | src/AudioCapture.cpp:125-156 | exactly numFrames outputs; formats that are neither float nor 16-bit give zeros |
| `Capture.FormatDispatch` | src/AudioCapture.cpp:132-143 | for any channel count: IEEE float and 32-bit EXTENSIBLE take the float downmix; other 16-bit formats take the integer downmix; everything else gives zeros |
| `Capture.IsFloatFormat` | src/AudioCapture.cpp:132-133 | PCM is never on the float path, nor is any 16-bit format other than IEEE float |
| `Capture.IsInt16Format` | src/AudioCapture.cpp:143 | the integer path excludes the float path, and for PCM it is taken exactly at 16 bits |
| `Capture.DownmixFloat` | src/AudioCapture.cpp:135-139 | length only: one output per frame (its value is given by `FloatFrameIsMean`) |
| `Capture.DownmixInt16` | src/AudioCapture.cpp:145-150 | length only: one output per frame (its value is given by `Int16FrameTruncates`) |
| `Capture.FloatFrameIsMean` | src/AudioCapture.cpp:136-138 | on the float path each output times the channel count equals its frame's channel sum |
| `Capture.FloatFrameIsChannelMean` | src/AudioCapture.cpp:135-139 | on the float path each output lies between the bounds of its frame's channels, so identical channels pass through |
| `Capture.MonoFloatPassesThrough` | src/AudioCapture.cpp:135-139 | a one-channel float stream comes out unchanged |
| `Capture.Int16FrameInRange` | src/AudioCapture.cpp:145-150 | on the 16-bit path every output is in [-1, 32767/32768] |
| `Capture.Int16FrameTruncates` | src/AudioCapture.cpp:146-149 | on the 16-bit path output·32768 is a whole number q; for a non-negative channel sum q·ch <= sum < q·ch + ch, for a negative one q·ch - ch < sum <= q·ch: the quotient rounded toward zero |
| `Capture.StereoInt16RoundsTowardZero` | src/AudioCapture.cpp:146-149 | the stereo frame (-1, 0) converts to 0, not to -1/32768 |
| `Capture.MonoInt16IsScaled` | src/AudioCapture.cpp:145-150 | a one-channel 16-bit stream comes out as each sample over 32768 |
| `Capture.ConvertReadsOnlyItsFrames` | src/AudioCapture.cpp:125-156 | the output depends only on the packet's own numFrames frames, because the output is cleared first and filled from them |
| `Capture.PacketBlock` | src/AudioCapture.cpp:178-182 | numFrames samples per packet: all zero when the device flags the packet silent, otherwise the packet's `ConvertToMonoFloat` downmix; the format matters only for a non-silent packet |
| `Capture.DeliverPacket` | src/AudioCapture.cpp:178-186 | the packet's block is appended to the ring, cut to the free space; an empty block leaves the ring unchanged |
| `Capture.SilentPacketAddsZeros` | src/AudioCapture.cpp:178-186 | a silent packet appends as many zeros as fit |

## Left out

- WASAPI and COM: device activation, the mix format query, the event and packet calls and their error exits (`AudioCapture::start`, `stop`, and the `FAILED(hr)` breaks in `captureLoop`). These are calls into the operating system. A packet is given as its frame count, its silent flag and its samples.
- The byte reinterpretation in `convertToMonoFloat`. The packet is given as the two typed views the function takes of it: 32-bit floats and 16-bit integers.
- Threads, mutexes, atomics and stop flags. Every operation is modelled as one atomic step. For the ring buffer and `setBands`/`setViewportSize` that is what their single critical section gives. `renderFrame` is different: it reads `m_viewSize` without the lock and takes `m_mutex` in separate sections (src/Renderer.cpp:68, 73, 85, 97, 121). `Rendering.Tick` runs them as one step, so the interleavings are left out. In one of them, a `setBands` with a new band count runs between the peak update and the drawing loop and resizes `m_peaks`, and line 99 then reads a peak past its end or a zero peak.
- Timing: the 5 ms polling sleeps, and the 30 ms render period of `Renderer::run` (`Rendering.Ticks` counts ticks instead).
- kiss_fftr, `std::cos` in `computeHannWindow`, `std::pow` in the edge computation, and `std::sqrt`. These are parameters: `fft`, `hann`, `edges`, `sqrt`.
- Floating point: samples and bands are exact reals, so float rounding and the float accumulation order are not modelled. The sums keep the source's left-to-right order.
- Qt drawing: `colorForValue`, pixels, antialiasing and `getLatestFrame`. A frame is the geometry of its bars.
- The widget and application glue in `SystemAudioSpectrum`.
- Numerics.TruncToInt: does not model 32-bit `int` overflow of the cast, because the renderer only casts values bounded by the viewport height.
- Rendering.Gap: does not model 32-bit overflow of `numBars * 20`, because the band count is 20 in practice.
- Bands.ComputeBands: requires at least one magnitude bin and a positive bin width, because with no bins the source reads `magnitudes[0]` out of bounds, and a zero sample rate divides by zero. The analysis always passes 1024 bins.
- Capture.ConvertToMonoFloat: requires at least one channel and a packet holding numFrames full frames, because the source divides by the channel count and reads numFrames × channels samples.

=== FILE: analysis.dfy ===
/** One cycle of the analysis worker (`FFTProcessor::run`): take a hop of
    new samples from the ring buffer, slide the analysis window, window it,
    transform it, keep the magnitudes below the Nyquist bin and publish the
    band vector.

    The Hann coefficients and the real FFT are given: `hann` is a sequence
    of FftSize reals and `fft` a function returning FftSize / 2 + 1 complex
    bins. The magnitude's `std::sqrt` is the same `sqrt` parameter as the
    band companding. */
module Analysis {
  import opened Numerics
  import opened RingBuffers
  import opened Bands

  const FftSize: nat := 2048
  const HopSize: nat := 512
  const NumBins: nat := FftSize / 2

  datatype Complex = Complex(re: real, im: real)

  /** re² + im² of one bin. */
  function Power(c: Complex): (p: real)
    ensures p >= 0.0
  {
    c.re * c.re + c.im * c.im
  }

  datatype Option<T> = None | Some(value: T)

  /** `std::rotate(begin, begin + k, end)`: a left rotation by k. */
  function RotateLeft(s: seq<real>, k: nat): (r: seq<real>)
    requires k <= |s|
    ensures |r| == |s|
    ensures forall i :: 0 <= i < |s| - k ==> r[i] == s[i + k]
    ensures forall i :: |s| - k <= i < |s| ==> r[i] == s[i - (|s| - k)]
  {
    s[k..] + s[..k]
  }

  /** `std::copy(hop, end - |hop|)`: overwrite the last |hop| entries. */
  function OverwriteTail(s: seq<real>, hop: seq<real>): (r: seq<real>)
    requires |hop| <= |s|
    ensures |r| == |s| && r[|s| - |hop|..] == hop
    ensures r[..|s| - |hop|] == s[..|s| - |hop|]
  {
    s[..|s| - |hop|] + hop
  }

  /** The window slide: the oldest hop leaves, the new hop is appended,
      and the length stays FftSize. */
  function Slide(window: seq<real>, hop: seq<real>): (r: seq<real>)
    requires |window| == FftSize && |hop| == HopSize
    ensures |r| == FftSize
    ensures r == window[HopSize..] + hop
  {
    var rotated := RotateLeft(window, HopSize);
    assert rotated[..FftSize - HopSize] == window[HopSize..];
    OverwriteTail(rotated, hop)
  }

  /** Four full hops replace the whole window with the samples of those
      hops in arrival order. */
  lemma FourHopsFillWindow(w: seq<real>, h1: seq<real>, h2: seq<real>, h3: seq<real>, h4: seq<real>)
    requires |w| == FftSize
    requires |h1| == HopSize && |h2| == HopSize && |h3| == HopSize && |h4| == HopSize
    ensures Slide(Slide(Slide(Slide(w, h1), h2), h3), h4) == h1 + h2 + h3 + h4
  {
    var w1 := Slide(w, h1);
    var w2 := Slide(w1, h2);
    var w3 := Slide(w2, h3);
    assert w3 == w[3 * HopSize..] + h1 + h2 + h3;
    assert w[3 * HopSize..][HopSize..] == [];
  }

  /** Element-wise product with the window coefficients. */
  function Windowed(input: seq<real>, hann: seq<real>): (r: seq<real>)
    requires |input| == FftSize && |hann| == FftSize
    ensures |r| == FftSize
    ensures forall i :: 0 <= i < FftSize ==> r[i] == input[i] * hann[i]
  {
    seq(FftSize, i requires 0 <= i < FftSize => input[i] * hann[i])
  }

  /** Magnitudes of the bins below Nyquist: FftSize / 2 values out of the
      FftSize / 2 + 1 bins the transform returns. */
  function Magnitudes(bins: seq<Complex>, sqrt: real -> real): (r: seq<real>)
    requires |bins| == NumBins + 1
    ensures |r| == NumBins
    ensures forall k :: 0 <= k < NumBins ==> r[k] == sqrt(Power(bins[k]))
  {
    seq(NumBins, k requires 0 <= k < NumBins => sqrt(Power(bins[k])))
  }

  /** Magnitude k follows the power of bin k: a stronger bin never has a
      smaller magnitude, an empty bin has magnitude 0 and a unit bin 1. */
  lemma MagnitudesFollowPower(bins: seq<Complex>, sqrt: real -> real, j: nat, k: nat)
    requires |bins| == NumBins + 1 && SqrtLike(sqrt) && j < NumBins && k < NumBins
    ensures Power(bins[j]) <= Power(bins[k]) ==> Magnitudes(bins, sqrt)[j] <= Magnitudes(bins, sqrt)[k]
    ensures Power(bins[k]) == 0.0 ==> Magnitudes(bins, sqrt)[k] == 0.0
    ensures Power(bins[k]) == 1.0 ==> Magnitudes(bins, sqrt)[k] == 1.0
  {
  }

  /** Magnitudes are never negative. */
  lemma MagnitudesNonNegative(bins: seq<Complex>, sqrt: real -> real)
    requires |bins| == NumBins + 1 && SqrtLike(sqrt)
    ensures forall k :: 0 <= k < NumBins ==> Magnitudes(bins, sqrt)[k] >= 0.0
  {
    forall k | 0 <= k < NumBins
      ensures Magnitudes(bins, sqrt)[k] >= 0.0
    {
      SqrtNonNegative(sqrt, Power(bins[k]));
    }
  }

  /** The Nyquist bin takes no part: spectra that differ only there give
      the same magnitudes. */
  lemma NyquistExcluded(bins: seq<Complex>, other: seq<Complex>, sqrt: real -> real)
    requires |bins| == NumBins + 1 && |other| == NumBins + 1
    requires bins[..NumBins] == other[..NumBins]
    ensures Magnitudes(bins, sqrt) == Magnitudes(other, sqrt)
  {
    forall k | 0 <= k < NumBins
      ensures Magnitudes(bins, sqrt)[k] == Magnitudes(other, sqrt)[k]
    {
      assert bins[k] == bins[..NumBins][k] == other[..NumBins][k] == other[k];
    }
  }

  /** Everything one cycle of the worker produces. */
  datatype CycleResult = CycleResult(ring: Ring, window: seq<real>, published: Option<seq<real>>)

  /** What the worker relies on about the transform. */
  ghost predicate TransformShape(fft: seq<real> -> seq<Complex>) {
    forall x :: |fft(x)| == NumBins + 1
  }

  /** One loop iteration: read up to a hop; on a short read keep the window
      and publish nothing; otherwise slide, window, transform and publish
      the band vector. */
  function Cycle(ring: Ring, window: seq<real>, hann: seq<real>, fft: seq<real> -> seq<Complex>,
                 sqrt: real -> real, edges: seq<real>, sampleRate: real): (r: CycleResult)
    requires ring.Valid() && |window| == FftSize && |hann| == FftSize
    requires TransformShape(fft) && |edges| == NumBands + 1 && sampleRate > 0.0
    ensures r.ring.Valid() && |r.ring.slots| == |ring.slots| && |r.window| == FftSize
    ensures ring.AvailableToRead() < HopSize ==>
              r.window == window && r.published == None && r.ring.Contents() == []
    ensures ring.AvailableToRead() >= HopSize ==>
              && r.window == window[HopSize..] + ring.Contents()[..HopSize]
              && r.ring.Contents() == ring.Contents()[HopSize..]
              && r.published == Some(ComputeBands(Magnitudes(fft(Windowed(r.window, hann)), sqrt),
                                                  edges, sampleRate / FftSize as real, sqrt))
              && |r.published.value| == NumBands
              && forall b :: 0 <= b < NumBands ==> 0.0 <= r.published.value[b] <= 1.0
  {
    var (ring', hop) := ring.Read(HopSize);
    if |hop| < HopSize then
      CycleResult(ring', window, None)
    else
      var window' := Slide(window, hop);
      var mags := Magnitudes(fft(Windowed(window', hann)), sqrt);
      var binHz := sampleRate / FftSize as real;
      CycleResult(ring', window', Some(ComputeBands(mags, edges, binHz, sqrt)))
  }

  /** The window the worker starts from: FftSize zeros. */
  function InitialWindow(): (w: seq<real>)
    ensures |w| == FftSize && forall i :: 0 <= i < FftSize ==> w[i] == 0.0
  {
    Zeros(FftSize)
  }
}

=== FILE: bands.dfy ===
/** `computeBands`: aggregation of the magnitude spectrum into 20
    log-spaced bands, followed by normalisation to [0, 1].

    The 20 edge frequencies come from `std::pow` in the source; here they
    are a given sequence `edges` of NumBands + 1 reals, held in
    `edges[1..21]`, where band b spans from `edges[b]` up to `edges[b + 1]`,
    except that band 0 starts at 0 Hz, so `edges[0]` is never read. The upper edge of
    band b and the lower edge of band b + 1 are the same expression in the
    source and are one value here. The companding `std::pow(n, 0.5)` is a
    function parameter constrained by `SqrtLike`. */
module Bands {
  import opened Numerics

  const NumBands: nat := 20

  /** Frame maximum floor that keeps the division defined (1e-6). */
  const MaxFloor: real := 0.000001

  /** What the model relies on about the square root: it fixes 0 and 1 and
      is monotone on the non-negative reals. */
  ghost predicate SqrtLike(sqrt: real -> real) {
    && sqrt(0.0) == 0.0
    && sqrt(1.0) == 1.0
    && forall x, y :: 0.0 <= x <= y ==> sqrt(x) <= sqrt(y)
  }

  lemma SqrtNonNegative(sqrt: real -> real, x: real)
    requires SqrtLike(sqrt) && x >= 0.0
    ensures sqrt(x) >= 0.0
  {
    assert sqrt(0.0) <= sqrt(x);
  }

  /** Half-open bin index range [lo, hi) of one band. */
  datatype BinRange = BinRange(lo: int, hi: int)

  /** Lower edge frequency of band b: 0 Hz for band 0 (so that DC is
      included), otherwise the upper edge of band b - 1. */
  function LowerEdge(edges: seq<real>, b: nat): (f: real)
    requires |edges| == NumBands + 1 && b < NumBands
    ensures b == 0 ==> f == 0.0
    ensures b > 0 ==> f == edges[b]
  {
    if b == 0 then 0.0 else edges[b]
  }

  /** The bins of band b: floor of the lower edge and ceiling of the upper
      edge, in bins of width `binHz`, clamped to the `numBins` available and
      widened to at least one bin. */
  function BandBins(edges: seq<real>, binHz: real, numBins: int, b: nat): (r: BinRange)
    requires |edges| == NumBands + 1 && b < NumBands
    requires binHz > 0.0 && numBins >= 1
    ensures 0 <= r.lo < r.hi <= numBins
    ensures b == 0 ==> r.lo == 0
  {
    var i0 := Floor(LowerEdge(edges, b) / binHz);
    var i1 := Ceil(edges[b + 1] / binHz);
    var lo := MaxInt(0, MinInt(i0, numBins - 1));
    var hi := MaxInt(lo + 1, MinInt(i1, numBins));
    BinRange(lo, hi)
  }

  /** Consecutive bands leave no bin between them: band b reaches at least
      up to where band b + 1 starts, since both bounds come from the same
      edge, one rounded up and the other down. */
  lemma NoGapBetweenBands(edges: seq<real>, binHz: real, numBins: int, b: nat)
    requires |edges| == NumBands + 1 && b + 1 < NumBands
    requires binHz > 0.0 && numBins >= 1
    ensures BandBins(edges, binHz, numBins, b).hi >= BandBins(edges, binHz, numBins, b + 1).lo
  {
    FloorLeCeil(edges[b + 1] / binHz);
  }

  /** With increasing edges the bands start in non-decreasing bin order. */
  lemma BandStartsIncrease(edges: seq<real>, binHz: real, numBins: int, b: nat)
    requires |edges| == NumBands + 1 && b + 1 < NumBands
    requires binHz > 0.0 && numBins >= 1
    requires edges[b] <= edges[b + 1] && 0.0 <= edges[b + 1]
    ensures BandBins(edges, binHz, numBins, b).lo <= BandBins(edges, binHz, numBins, b + 1).lo
  {
    var l0 := LowerEdge(edges, b);
    assert l0 <= edges[b + 1];
    DivideMonotone(l0, edges[b + 1], binHz);
  }

  /** Where no clamp binds (the band lies within the spectrum and its
      edges are at least one bin apart once rounded), band b starts at the
      bin containing its lower edge and ends with the first bin whose upper
      end reaches its upper edge. */
  lemma BandBinsMatchEdges(edges: seq<real>, binHz: real, numBins: int, b: nat)
    requires |edges| == NumBands + 1 && b < NumBands
    requires binHz > 0.0 && numBins >= 1
    requires 0.0 <= LowerEdge(edges, b) && edges[b + 1] <= numBins as real * binHz
    requires Floor(LowerEdge(edges, b) / binHz) < Ceil(edges[b + 1] / binHz)
    ensures var r := BandBins(edges, binHz, numBins, b);
            && r.lo == Floor(LowerEdge(edges, b) / binHz)
            && r.hi == Ceil(edges[b + 1] / binHz)
            && r.lo as real * binHz <= LowerEdge(edges, b) < (r.lo + 1) as real * binHz
            && (r.hi - 1) as real * binHz < edges[b + 1] <= r.hi as real * binHz
  {
    var f0 := LowerEdge(edges, b);
    var f1 := edges[b + 1];
    FloorScaled(f0, binHz);
    CeilScaled(f1, binHz);
    CeilWithin(f1, binHz, numBins);
    FloorNonNegative(f0, binHz);
  }

  /** The bin containing x: floor(x / d) bins of width d end at or below x. */
  lemma FloorScaled(x: real, d: real)
    requires d > 0.0
    ensures Floor(x / d) as real * d <= x < (Floor(x / d) + 1) as real * d
  {
    var q := x / d;
    assert q * d == x;
    var i := Floor(q);
    assert i as real <= q < (i + 1) as real;
    MulLe(i as real, q, d);
    MulLt(q, (i + 1) as real, d);
    assert x < (i + 1) as real * d;
  }

  /** ceil(x / d) bins of width d are the fewest that reach x. */
  lemma CeilScaled(x: real, d: real)
    requires d > 0.0
    ensures (Ceil(x / d) - 1) as real * d < x <= Ceil(x / d) as real * d
  {
    var q := x / d;
    assert q * d == x;
    var i := Ceil(q);
    assert (i - 1) as real < q <= i as real;
    MulLt((i - 1) as real, q, d);
    MulLe(q, i as real, d);
    assert (i - 1) as real * d < x;
  }

  lemma CeilWithin(x: real, d: real, n: int)
    requires d > 0.0 && x <= n as real * d
    ensures Ceil(x / d) <= n
  {
    var q := x / d;
    DivideMonotone(x, n as real * d, d);
    MulDivCancel(n as real, d);
    assert d * n as real == n as real * d;
    assert q <= n as real;
  }

  lemma FloorNonNegative(x: real, d: real)
    requires d > 0.0 && x >= 0.0
    ensures Floor(x / d) >= 0
  {
    DivideMonotone(0.0, x, d);
  }

  /** Arithmetic mean of the magnitudes in a range: the value which,
      taken once per bin, adds up to the range's total. */
  function Mean(mags: seq<real>, r: BinRange): (m: real)
    requires 0 <= r.lo < r.hi <= |mags|
    ensures m * (r.hi - r.lo) as real == Sum(mags[r.lo..r.hi])
  {
    Sum(mags[r.lo..r.hi]) / (r.hi - r.lo) as real
  }

  /** The band values before normalisation: one mean per band. */
  function RawBands(mags: seq<real>, edges: seq<real>, binHz: real): (r: seq<real>)
    requires |edges| == NumBands + 1 && binHz > 0.0 && |mags| >= 1
    ensures |r| == NumBands
    ensures forall b :: 0 <= b < NumBands ==>
              var br := BandBins(edges, binHz, |mags|, b);
              r[b] * (br.hi - br.lo) as real == Sum(mags[br.lo..br.hi])
  {
    seq(NumBands, b requires 0 <= b < NumBands => Mean(mags, BandBins(edges, binHz, |mags|, b)))
  }

  /** Each raw band lies between the smallest and largest magnitude of its
      bins; in particular non-negative magnitudes give non-negative bands. */
  lemma RawBandWithinBins(mags: seq<real>, edges: seq<real>, binHz: real, b: nat, lo: real, hi: real)
    requires |edges| == NumBands + 1 && binHz > 0.0 && |mags| >= 1 && b < NumBands
    requires forall i :: BandBins(edges, binHz, |mags|, b).lo <= i < BandBins(edges, binHz, |mags|, b).hi
                         ==> lo <= mags[i] <= hi
    ensures lo <= RawBands(mags, edges, binHz)[b] <= hi
  {
    var r := BandBins(edges, binHz, |mags|, b);
    var s := mags[r.lo..r.hi];
    assert forall k :: 0 <= k < |s| ==> s[k] == mags[r.lo + k];
    MeanBounds(s, lo, hi);
  }

  lemma RawBandsNonNegative(mags: seq<real>, edges: seq<real>, binHz: real)
    requires |edges| == NumBands + 1 && binHz > 0.0 && |mags| >= 1
    requires forall i :: 0 <= i < |mags| ==> mags[i] >= 0.0
    ensures forall b :: 0 <= b < NumBands ==> RawBands(mags, edges, binHz)[b] >= 0.0
  {
    var hi := RunningMax(0.0, mags);
    forall b | 0 <= b < NumBands
      ensures RawBands(mags, edges, binHz)[b] >= 0.0
    {
      RawBandWithinBins(mags, edges, binHz, b, 0.0, hi);
    }
  }

  /** A flat spectrum gives every band that same value. */
  lemma FlatSpectrumFlatBands(mags: seq<real>, edges: seq<real>, binHz: real, x: real)
    requires |edges| == NumBands + 1 && binHz > 0.0 && |mags| >= 1
    requires forall i :: 0 <= i < |mags| ==> mags[i] == x
    ensures forall b :: 0 <= b < NumBands ==> RawBands(mags, edges, binHz)[b] == x
  {
    forall b | 0 <= b < NumBands
      ensures RawBands(mags, edges, binHz)[b] == x
    {
      RawBandWithinBins(mags, edges, binHz, b, x, x);
    }
  }

  /** The normalisation divisor: the running maximum over the bands,
      starting from `acc` (the source starts it at 1e-6). It bounds every
      band and equals either the start value or one of the bands. */
  function RunningMax(acc: real, s: seq<real>): (m: real)
    ensures m >= acc && forall i :: 0 <= i < |s| ==> s[i] <= m
    ensures m == acc || exists i :: 0 <= i < |s| && m == s[i]
    decreases |s|
  {
    if |s| == 0 then acc
    else
      var m := RunningMax(MaxReal(acc, s[0]), s[1..]);
      assert forall i :: 1 <= i < |s| ==> s[i] == s[1..][i - 1];
      m
  }

  /** The divisor `computeBands` uses: the largest band, or 1e-6 when
      every band is below that. */
  function FrameMax(raw: seq<real>): (m: real)
    ensures m >= MaxFloor && forall i :: 0 <= i < |raw| ==> raw[i] <= m
    ensures m == MaxFloor || exists i :: 0 <= i < |raw| && m == raw[i]
  {
    RunningMax(MaxFloor, raw)
  }

  /** One normalised band: divide by the frame maximum, compand, clamp. */
  function NormalizeOne(v: real, maxVal: real, sqrt: real -> real): (n: real)
    requires maxVal > 0.0
    ensures 0.0 <= n <= 1.0
    ensures SqrtLike(sqrt) && v >= maxVal ==> n == 1.0
    ensures SqrtLike(sqrt) && v == 0.0 ==> n == 0.0
    ensures SqrtLike(sqrt) && 0.0 <= v <= maxVal ==> n == sqrt(v / maxVal)
  {
    CompandedInUnit(sqrt, v, maxVal);
    Clamp(sqrt(v / maxVal), 0.0, 1.0)
  }

  /** A value between 0 and the divisor compands into [0, 1], so the clamp
      leaves it alone; a value at or above the divisor compands to at least 1. */
  lemma CompandedInUnit(sqrt: real -> real, v: real, maxVal: real)
    requires maxVal > 0.0
    ensures SqrtLike(sqrt) && 0.0 <= v <= maxVal ==> 0.0 <= sqrt(v / maxVal) <= 1.0
    ensures SqrtLike(sqrt) && v >= maxVal ==> sqrt(v / maxVal) >= 1.0
  {
    if SqrtLike(sqrt) && v >= maxVal {
      DivideMonotone(maxVal, v, maxVal);
      DivSelf(maxVal);
      assert sqrt(1.0) <= sqrt(v / maxVal);
    }
    if SqrtLike(sqrt) && 0.0 <= v <= maxVal {
      DivideMonotone(0.0, v, maxVal);
      DivideMonotone(v, maxVal, maxVal);
      DivSelf(maxVal);
      assert 0.0 <= v / maxVal <= 1.0;
      assert sqrt(0.0) <= sqrt(v / maxVal) <= sqrt(1.0);
    }
  }

  function Normalize(raw: seq<real>, sqrt: real -> real): (r: seq<real>)
    ensures |r| == |raw|
    ensures forall i :: 0 <= i < |r| ==> 0.0 <= r[i] <= 1.0
  {
    var m := FrameMax(raw);
    seq(|raw|, i requires 0 <= i < |raw| => NormalizeOne(raw[i], m, sqrt))
  }

  /** `computeBands`: 20 band means, normalised. */
  function ComputeBands(mags: seq<real>, edges: seq<real>, binHz: real, sqrt: real -> real): (r: seq<real>)
    requires |edges| == NumBands + 1 && binHz > 0.0 && |mags| >= 1
    ensures |r| == NumBands
    ensures forall b :: 0 <= b < NumBands ==> 0.0 <= r[b] <= 1.0
  {
    Normalize(RawBands(mags, edges, binHz), sqrt)
  }

  /** Silence in, silence out: an all-zero input normalises to all zeros
      (the 1e-6 floor keeps the division defined). */
  lemma NormalizeZero(raw: seq<real>, sqrt: real -> real)
    requires SqrtLike(sqrt)
    requires forall i :: 0 <= i < |raw| ==> raw[i] == 0.0
    ensures forall i :: 0 <= i < |raw| ==> Normalize(raw, sqrt)[i] == 0.0
  {
  }

  /** Each normalised band is the square root of its share of the frame
      maximum. */
  lemma NormalizeValue(raw: seq<real>, sqrt: real -> real, i: nat)
    requires SqrtLike(sqrt) && i < |raw|
    requires forall k :: 0 <= k < |raw| ==> raw[k] >= 0.0
    ensures Normalize(raw, sqrt)[i] == sqrt(raw[i] / FrameMax(raw))
  {
    var m := FrameMax(raw);
    assert 0.0 <= raw[i] <= m;
    assert Normalize(raw, sqrt)[i] == NormalizeOne(raw[i], m, sqrt);
  }

  /** `computeBands` end to end: band b is the square root of its mean
      magnitude over the largest band mean (at least 1e-6). */
  lemma ComputeBandsValue(mags: seq<real>, edges: seq<real>, binHz: real, sqrt: real -> real, b: nat)
    requires |edges| == NumBands + 1 && binHz > 0.0 && |mags| >= 1 && SqrtLike(sqrt) && b < NumBands
    requires forall i :: 0 <= i < |mags| ==> mags[i] >= 0.0
    ensures var raw := RawBands(mags, edges, binHz);
            ComputeBands(mags, edges, binHz, sqrt)[b] == sqrt(raw[b] / FrameMax(raw))
  {
    RawBandsNonNegative(mags, edges, binHz);
    NormalizeValue(RawBands(mags, edges, binHz), sqrt, b);
  }

  /** A silent spectrum gives 20 silent bands. */
  lemma ComputeBandsSilence(mags: seq<real>, edges: seq<real>, binHz: real, sqrt: real -> real)
    requires |edges| == NumBands + 1 && binHz > 0.0 && |mags| >= 1 && SqrtLike(sqrt)
    requires forall i :: 0 <= i < |mags| ==> mags[i] == 0.0
    ensures forall b :: 0 <= b < NumBands ==> ComputeBands(mags, edges, binHz, sqrt)[b] == 0.0
  {
    FlatSpectrumFlatBands(mags, edges, binHz, 0.0);
    NormalizeZero(RawBands(mags, edges, binHz), sqrt);
  }

  /** A loudest band at or above the 1e-6 floor becomes exactly 1. */
  lemma NormalizeLoudestIsOne(raw: seq<real>, sqrt: real -> real, j: nat)
    requires SqrtLike(sqrt) && j < |raw| && raw[j] >= MaxFloor
    requires forall i :: 0 <= i < |raw| ==> raw[i] <= raw[j]
    ensures Normalize(raw, sqrt)[j] == 1.0
  {
    var m := FrameMax(raw);
    assert m == raw[j];
    assert m > 0.0;
    DivSelf(raw[j]);
    assert Normalize(raw, sqrt)[j] == NormalizeOne(raw[j], m, sqrt);
  }

  /** Normalisation keeps the order of non-negative bands. */
  lemma NormalizeKeepsOrder(raw: seq<real>, sqrt: real -> real, i: nat, j: nat)
    requires SqrtLike(sqrt) && i < |raw| && j < |raw|
    requires 0.0 <= raw[i] <= raw[j]
    ensures Normalize(raw, sqrt)[i] <= Normalize(raw, sqrt)[j]
  {
    var m := FrameMax(raw);
    DivideMonotone(raw[i], raw[j], m);
    DivideMonotone(0.0, raw[i], m);
    assert sqrt(raw[i] / m) <= sqrt(raw[j] / m);
    ClampMonotone(sqrt(raw[i] / m), sqrt(raw[j] / m), 0.0, 1.0);
  }

  /** Bands whose raw values are equal stay equal. */
  lemma NormalizeKeepsTies(raw: seq<real>, sqrt: real -> real, i: nat, j: nat)
    requires i < |raw| && j < |raw| && raw[i] == raw[j]
    ensures Normalize(raw, sqrt)[i] == Normalize(raw, sqrt)[j]
  {
  }
}

=== FILE: capture.dfy ===
/** The sample path of the capture worker: `convertToMonoFloat`, which
    downmixes one packet of interleaved frames to mono according to the
    negotiated format, and the branch of `captureLoop` that substitutes
    zeros for a silent packet and writes the block into the ring buffer.

    The packet's bytes are given as the two views the conversion can take
    of them: a sequence of 32-bit floats and a sequence of 16-bit integers
    (the source reinterprets one buffer either way). */
module Capture {
  import opened Numerics
  import opened RingBuffers

  /** wFormatTag values. */
  const WaveFormatPcm: int := 1
  const WaveFormatIeeeFloat: int := 3
  const WaveFormatExtensible: int := 0xFFFE

  /** Full scale of a 16-bit sample. */
  const Int16Scale: real := 32768.0

  type Int16 = x: int | -32768 <= x <= 32767

  datatype WaveFormat = WaveFormat(formatTag: int, channels: nat, bitsPerSample: nat)

  /** One packet's samples, interleaved frame by frame, in both views. */
  datatype Packet = Packet(asFloat32: seq<real>, asInt16: seq<Int16>)

  /** IEEE float, or EXTENSIBLE with 32 bits per sample. */
  predicate IsFloatFormat(fmt: WaveFormat): (float: bool)
    ensures fmt.formatTag == WaveFormatPcm ==> !float
    ensures fmt.bitsPerSample == 16 && fmt.formatTag != WaveFormatIeeeFloat ==> !float
  {
    fmt.formatTag == WaveFormatIeeeFloat
    || (fmt.formatTag == WaveFormatExtensible && fmt.bitsPerSample == 32)
  }

  /** Anything else with 16 bits per sample; never also the float path. */
  predicate IsInt16Format(fmt: WaveFormat): (int16: bool)
    ensures int16 ==> !IsFloatFormat(fmt)
    ensures fmt.formatTag == WaveFormatPcm ==> (int16 <==> fmt.bitsPerSample == 16)
  {
    !IsFloatFormat(fmt) && fmt.bitsPerSample == 16
  }

  /** The packet holds `numFrames` full frames in the view its format uses. */
  predicate Holds(p: Packet, numFrames: nat, fmt: WaveFormat) {
    && (IsFloatFormat(fmt) ==> |p.asFloat32| >= numFrames * fmt.channels)
    && (IsInt16Format(fmt) ==> |p.asInt16| >= numFrames * fmt.channels)
  }

  lemma FrameFits(i: nat, numFrames: nat, channels: nat)
    requires i < numFrames
    ensures i * channels + channels <= numFrames * channels
  {
    MulMonotone(i + 1, numFrames, channels);
    assert (i + 1) * channels == i * channels + channels;
  }

  /** The channel samples of frame i. */
  function FrameOf<T>(samples: seq<T>, i: nat, numFrames: nat, channels: nat): (f: seq<T>)
    requires i < numFrames && |samples| >= numFrames * channels
    ensures |f| == channels
  {
    FrameFits(i, numFrames, channels);
    var base := i * channels;
    samples[base .. base + channels]
  }

  /** Float path: each output frame is the sum of its channels divided by
      the channel count. */
  function DownmixFloat(samples: seq<real>, numFrames: nat, channels: nat): (out: seq<real>)
    requires channels >= 1 && |samples| >= numFrames * channels
    ensures |out| == numFrames
  {
    seq(numFrames, i requires 0 <= i < numFrames =>
      Sum(FrameOf(samples, i, numFrames, channels)) / channels as real)
  }

  /** 16-bit path: integer sum, C++ integer division by the channel count
      (toward zero), then scaling by 1/32768. */
  function DownmixInt16(samples: seq<Int16>, numFrames: nat, channels: nat): (out: seq<real>)
    requires channels >= 1 && |samples| >= numFrames * channels
    ensures |out| == numFrames
  {
    seq(numFrames, i requires 0 <= i < numFrames =>
      TruncDiv(IntSum(FrameOf(samples, i, numFrames, channels)), channels) as real / Int16Scale)
  }

  /** `convertToMonoFloat`: the output starts empty and receives exactly
      one value per frame; the format picks the float path, the 16-bit path
      or, for anything else, zeros. */
  function ConvertToMonoFloat(p: Packet, numFrames: nat, fmt: WaveFormat): (out: seq<real>)
    requires fmt.channels >= 1 && Holds(p, numFrames, fmt)
    ensures |out| == numFrames
    ensures !IsFloatFormat(fmt) && !IsInt16Format(fmt) ==> forall i :: 0 <= i < numFrames ==> out[i] == 0.0
  {
    if IsFloatFormat(fmt) then DownmixFloat(p.asFloat32, numFrames, fmt.channels)
    else if fmt.bitsPerSample == 16 then DownmixInt16(p.asInt16, numFrames, fmt.channels)
    else Zeros(numFrames)
  }

  /** Which conversion each format gets, for any channel count: IEEE
      float, and EXTENSIBLE with 32 bits, downmix as floats; any other
      16-bit format downmixes as integers; everything else is zeros. */
  lemma FormatDispatch(p: Packet, numFrames: nat, fmt: WaveFormat)
    requires fmt.channels >= 1 && Holds(p, numFrames, fmt)
    ensures fmt.formatTag == WaveFormatIeeeFloat ==>
              ConvertToMonoFloat(p, numFrames, fmt) == DownmixFloat(p.asFloat32, numFrames, fmt.channels)
    ensures fmt.formatTag == WaveFormatExtensible && fmt.bitsPerSample == 32 ==>
              ConvertToMonoFloat(p, numFrames, fmt) == DownmixFloat(p.asFloat32, numFrames, fmt.channels)
    ensures fmt.formatTag != WaveFormatIeeeFloat && fmt.bitsPerSample == 16 ==>
              ConvertToMonoFloat(p, numFrames, fmt) == DownmixInt16(p.asInt16, numFrames, fmt.channels)
    ensures fmt.formatTag != WaveFormatIeeeFloat && fmt.bitsPerSample != 16
            && !(fmt.formatTag == WaveFormatExtensible && fmt.bitsPerSample == 32) ==>
              ConvertToMonoFloat(p, numFrames, fmt) == Zeros(numFrames)
  {
  }

  /** On the float path every output frame is the mean of its channels: it
      lies between the smallest and largest channel value, and identical
      channels come through unchanged. */
  lemma FloatFrameIsChannelMean(p: Packet, numFrames: nat, fmt: WaveFormat, i: nat, lo: real, hi: real)
    requires fmt.channels >= 1 && Holds(p, numFrames, fmt) && IsFloatFormat(fmt) && i < numFrames
    requires forall c :: 0 <= c < fmt.channels ==> lo <= FrameOf(p.asFloat32, i, numFrames, fmt.channels)[c] <= hi
    ensures lo <= ConvertToMonoFloat(p, numFrames, fmt)[i] <= hi
  {
    var f := FrameOf(p.asFloat32, i, numFrames, fmt.channels);
    MeanBounds(f, lo, hi);
    assert ConvertToMonoFloat(p, numFrames, fmt)[i] == Sum(f) / fmt.channels as real;
  }

  /** On the float path each output, taken once per channel, adds up to
      the frame's channel sum: it is exactly the channel mean. */
  lemma FloatFrameIsMean(p: Packet, numFrames: nat, fmt: WaveFormat, i: nat)
    requires fmt.channels >= 1 && Holds(p, numFrames, fmt) && IsFloatFormat(fmt) && i < numFrames
    ensures ConvertToMonoFloat(p, numFrames, fmt)[i] * fmt.channels as real
            == Sum(FrameOf(p.asFloat32, i, numFrames, fmt.channels))
  {
    var ch := fmt.channels as real;
    var total := Sum(FrameOf(p.asFloat32, i, numFrames, fmt.channels));
    assert ConvertToMonoFloat(p, numFrames, fmt)[i] == total / ch;
    assert (total / ch) * ch == total;
  }

  /** A mono float stream passes through unchanged. */
  lemma {:induction false} MonoFloatPassesThrough(p: Packet, numFrames: nat, fmt: WaveFormat)
    requires fmt.channels == 1 && Holds(p, numFrames, fmt) && IsFloatFormat(fmt)
    ensures ConvertToMonoFloat(p, numFrames, fmt) == p.asFloat32[..numFrames]
  {
    var out := ConvertToMonoFloat(p, numFrames, fmt);
    forall i | 0 <= i < numFrames
      ensures out[i] == p.asFloat32[i]
    {
      var f := FrameOf(p.asFloat32, i, numFrames, 1);
      assert f[..0] == [];
      assert Sum(f) == Sum(f[..0]) + f[0];
    }
  }

  /** On the 16-bit path every output lies in [-1, 32767/32768]. */
  lemma Int16FrameInRange(p: Packet, numFrames: nat, fmt: WaveFormat, i: nat)
    requires fmt.channels >= 1 && Holds(p, numFrames, fmt) && IsInt16Format(fmt) && i < numFrames
    ensures -1.0 <= ConvertToMonoFloat(p, numFrames, fmt)[i] <= 32767.0 / Int16Scale
  {
    var ch := fmt.channels;
    var f := FrameOf(p.asInt16, i, numFrames, ch);
    IntSumBounds(f, -32768, 32767);
    TruncDivWithin(IntSum(f), ch, -32768, 32767);
    var q := TruncDiv(IntSum(f), ch);
    assert ConvertToMonoFloat(p, numFrames, fmt)[i] == q as real / Int16Scale;
  }

  /** On the 16-bit path, output times 32768 is a whole number q, the
      channel sum divided by the channel count and rounded toward zero. */
  lemma Int16FrameTruncates(p: Packet, numFrames: nat, fmt: WaveFormat, i: nat)
    requires fmt.channels >= 1 && Holds(p, numFrames, fmt) && IsInt16Format(fmt) && i < numFrames
    ensures var q := ConvertToMonoFloat(p, numFrames, fmt)[i] * Int16Scale;
            var total := IntSum(FrameOf(p.asInt16, i, numFrames, fmt.channels));
            var ch := fmt.channels;
            && q == q.Floor as real
            && (total >= 0 ==> 0 <= q.Floor * ch <= total < q.Floor * ch + ch)
            && (total < 0 ==> q.Floor * ch - ch < total <= q.Floor * ch <= 0)
  {
    var ch := fmt.channels;
    var total := IntSum(FrameOf(p.asInt16, i, numFrames, ch));
    var t := TruncDiv(total, ch);
    assert ConvertToMonoFloat(p, numFrames, fmt)[i] == t as real / Int16Scale;
    assert ConvertToMonoFloat(p, numFrames, fmt)[i] * Int16Scale == t as real;
  }

  /** The stereo frame (-1, 0) sums to -1, which C++ division by 2 rounds
      toward zero, so the frame converts to 0 and not to -1/32768. */
  lemma StereoInt16RoundsTowardZero()
    ensures ConvertToMonoFloat(Packet([], [-1, 0]), 1, WaveFormat(WaveFormatPcm, 2, 16)) == [0.0]
  {
    var f := FrameOf([-1, 0], 0, 1, 2);
    assert f == [-1, 0];
    assert IntSum(f) == IntSum([-1]) + 0 == -1;
    assert TruncDiv(-1, 2) == 0;
  }

  /** A mono 16-bit stream is each sample over 32768. */
  lemma MonoInt16IsScaled(p: Packet, numFrames: nat, fmt: WaveFormat, i: nat)
    requires fmt.channels == 1 && Holds(p, numFrames, fmt) && IsInt16Format(fmt) && i < numFrames
    ensures ConvertToMonoFloat(p, numFrames, fmt)[i] == p.asInt16[i] as real / Int16Scale
  {
    var f := FrameOf(p.asInt16, i, numFrames, 1);
    assert f[..0] == [];
    assert IntSum(f) == IntSum(f[..0]) + f[0];
  }

  /** A frame lies within the first numFrames * channels samples. */
  lemma FrameOfPrefix<T>(s: seq<T>, i: nat, numFrames: nat, channels: nat)
    requires i < numFrames && |s| >= numFrames * channels
    ensures FrameOf(s, i, numFrames, channels) == FrameOf(s[..numFrames * channels], i, numFrames, channels)
  {
    FrameFits(i, numFrames, channels);
  }

  /** The output depends on nothing but the packet's own frames: two
      packets that agree on those frames convert to the same block. */
  lemma ConvertReadsOnlyItsFrames(p: Packet, q: Packet, numFrames: nat, fmt: WaveFormat)
    requires fmt.channels >= 1 && Holds(p, numFrames, fmt) && Holds(q, numFrames, fmt)
    requires IsFloatFormat(fmt) ==> p.asFloat32[..numFrames * fmt.channels] == q.asFloat32[..numFrames * fmt.channels]
    requires IsInt16Format(fmt) ==> p.asInt16[..numFrames * fmt.channels] == q.asInt16[..numFrames * fmt.channels]
    ensures ConvertToMonoFloat(p, numFrames, fmt) == ConvertToMonoFloat(q, numFrames, fmt)
  {
    var ch := fmt.channels;
    if IsFloatFormat(fmt) {
      forall i | 0 <= i < numFrames
        ensures FrameOf(p.asFloat32, i, numFrames, ch) == FrameOf(q.asFloat32, i, numFrames, ch)
      {
        FrameOfPrefix(p.asFloat32, i, numFrames, ch);
        FrameOfPrefix(q.asFloat32, i, numFrames, ch);
      }
      assert DownmixFloat(p.asFloat32, numFrames, ch) == DownmixFloat(q.asFloat32, numFrames, ch);
    } else if IsInt16Format(fmt) {
      forall i | 0 <= i < numFrames
        ensures FrameOf(p.asInt16, i, numFrames, ch) == FrameOf(q.asInt16, i, numFrames, ch)
      {
        FrameOfPrefix(p.asInt16, i, numFrames, ch);
        FrameOfPrefix(q.asInt16, i, numFrames, ch);
      }
      assert DownmixInt16(p.asInt16, numFrames, ch) == DownmixInt16(q.asInt16, numFrames, ch);
    }
  }

  /** The block one packet contributes: zeros for a packet the device
      flags as silent, the converted samples otherwise. */
  function PacketBlock(silent: bool, p: Packet, numFrames: nat, fmt: WaveFormat): (out: seq<real>)
    requires !silent ==> fmt.channels >= 1 && Holds(p, numFrames, fmt)
    ensures |out| == numFrames
    ensures silent ==> forall i :: 0 <= i < numFrames ==> out[i] == 0.0
    ensures !silent ==> out == ConvertToMonoFloat(p, numFrames, fmt)
  {
    if silent then Zeros(numFrames) else ConvertToMonoFloat(p, numFrames, fmt)
  }

  /** One packet of the capture loop: its block is written to the ring
      buffer if it is non-empty; whatever does not fit is dropped. */
  function DeliverPacket(ring: Ring, silent: bool, p: Packet, numFrames: nat, fmt: WaveFormat): (r: Ring)
    requires ring.Valid() && (!silent ==> fmt.channels >= 1 && Holds(p, numFrames, fmt))
    ensures r.Valid() && |r.slots| == |ring.slots|
    ensures r.Contents() == ring.Contents()
              + PacketBlock(silent, p, numFrames, fmt)[..MinInt(numFrames, ring.AvailableToWrite())]
    ensures numFrames == 0 ==> r == ring
  {
    var mono := PacketBlock(silent, p, numFrames, fmt);
    if |mono| > 0 then ring.Write(mono).0 else ring
  }

  /** A silent packet of n frames adds as many zeros as fit. */
  lemma SilentPacketAddsZeros(ring: Ring, p: Packet, numFrames: nat, fmt: WaveFormat)
    requires ring.Valid()
    ensures DeliverPacket(ring, true, p, numFrames, fmt).Contents()
              == ring.Contents() + Zeros(MinInt(numFrames, ring.AvailableToWrite()))
  {
    var k := MinInt(numFrames, ring.AvailableToWrite());
    assert PacketBlock(true, p, numFrames, fmt)[..k] == Zeros(k);
  }
}

=== FILE: numerics.dfy ===
/** Integer and real helpers shared by the model: C++-style truncation,
    floor/ceiling, clamping and sums over sequences of reals. */
module Numerics {

  /** std::min on integers. */
  function MinInt(a: int, b: int): (m: int)
    ensures m <= a && m <= b && (m == a || m == b)
  {
    if a < b then a else b
  }

  /** std::max on integers. */
  function MaxInt(a: int, b: int): (m: int)
    ensures m >= a && m >= b && (m == a || m == b)
  {
    if a < b then b else a
  }

  /** std::max on reals. */
  function MaxReal(a: real, b: real): (m: real)
    ensures m >= a && m >= b && (m == a || m == b)
  {
    if a < b then b else a
  }

  /** std::clamp(x, lo, hi) */
  function Clamp(x: real, lo: real, hi: real): (r: real)
    requires lo <= hi
    ensures lo <= r <= hi
    ensures lo <= x <= hi ==> r == x
  {
    if x < lo then lo else if hi < x then hi else x
  }

  lemma ClampMonotone(x: real, y: real, lo: real, hi: real)
    requires lo <= hi && x <= y
    ensures Clamp(x, lo, hi) <= Clamp(y, lo, hi)
  {
  }

  /** std::floor followed by a cast to int. */
  function Floor(x: real): (r: int)
    ensures r as real <= x < r as real + 1.0
  {
    x.Floor
  }

  /** std::ceil followed by a cast to int, derived from the floor. */
  function Ceil(x: real): (r: int)
    ensures r as real - 1.0 < x <= r as real
  {
    -((-x).Floor)
  }

  lemma FloorLeCeil(x: real)
    ensures Floor(x) <= Ceil(x)
  {
  }

  /** C++ integer division `a / b` for a positive divisor: the quotient is
      truncated toward zero, unlike Dafny's Euclidean division. */
  function TruncDiv(a: int, b: int): (q: int)
    requires b > 0
    ensures a >= 0 ==> 0 <= q * b <= a < q * b + b
    ensures a < 0 ==> q * b - b < a <= q * b <= 0
  {
    if a >= 0 then
      DivRemainder(a, b);
      a / b
    else
      DivRemainder(-a, b);
      -((-a) / b)
  }

  lemma DivRemainder(n: nat, b: int)
    requires b > 0
    ensures 0 <= (n / b) * b <= n < (n / b) * b + b
  {
    assert n == (n / b) * b + n % b;
  }

  /** Dividing a sum of b values from [lo, hi] by b, toward zero, stays
      in [lo, hi]. */
  lemma TruncDivWithin(a: int, b: int, lo: int, hi: int)
    requires b > 0 && lo <= 0 <= hi && b * lo <= a <= b * hi
    ensures lo <= TruncDiv(a, b) <= hi
  {
  }

  /** static_cast<int>(x): the fractional part is dropped, toward zero. */
  function TruncToInt(x: real): (r: int)
    ensures x >= 0.0 ==> 0 <= r && r as real <= x < r as real + 1.0
    ensures x < 0.0 ==> r <= 0 && r as real - 1.0 < x <= r as real
  {
    if x >= 0.0 then x.Floor else -((-x).Floor)
  }

  /** Left-to-right sum, as the source's accumulating loops compute it. */
  function Sum(s: seq<real>): (total: real)
  {
    if |s| == 0 then 0.0 else Sum(s[..|s| - 1]) + s[|s| - 1]
  }

  function Zeros(n: nat): (r: seq<real>)
    ensures |r| == n && forall i :: 0 <= i < n ==> r[i] == 0.0
  {
    seq(n, _ => 0.0)
  }

  /** Summing values that all lie in [lo, hi] gives a total in [n*lo, n*hi]. */
  lemma {:induction false} SumBounds(s: seq<real>, lo: real, hi: real)
    requires forall i :: 0 <= i < |s| ==> lo <= s[i] <= hi
    ensures |s| as real * lo <= Sum(s) <= |s| as real * hi
  {
    if |s| > 0 {
      var n := |s| - 1;
      SumBounds(s[..n], lo, hi);
      assert Sum(s) == Sum(s[..n]) + s[n];
      assert |s| as real * lo == n as real * lo + lo && |s| as real * hi == n as real * hi + hi;
    }
  }

  /** The mean of a non-empty sequence lies between any lower and upper
      bound of its elements. */
  lemma MeanBounds(s: seq<real>, lo: real, hi: real)
    requires |s| > 0
    requires forall i :: 0 <= i < |s| ==> lo <= s[i] <= hi
    ensures lo <= Sum(s) / |s| as real <= hi
  {
    SumBounds(s, lo, hi);
    var n := |s| as real;
    DivideMonotone(n * lo, Sum(s), n);
    DivideMonotone(Sum(s), n * hi, n);
    MulDivCancel(lo, n);
    MulDivCancel(hi, n);
  }

  lemma MulDivCancel(x: real, n: real)
    requires n > 0.0
    ensures (n * x) / n == x
  {
  }

  /** Dividing by a positive number keeps the order. */
  lemma DivideMonotone(x: real, y: real, d: real)
    requires x <= y && d > 0.0
    ensures x / d <= y / d
  {
    assert y / d - x / d == (y - x) / d;
  }

  /** Multiplying by a non-negative factor keeps the order. */
  lemma {:induction false} MulMonotone(x: int, y: int, c: nat)
    requires x <= y
    ensures x * c <= y * c
    decreases y - x
  {
    if x < y {
      MulMonotone(x, y - 1, c);
      assert y * c == (y - 1) * c + c;
    }
  }

  /** Multiplying reals by a non-negative factor keeps the order. */
  lemma MulLe(a: real, b: real, d: real)
    requires a <= b && d >= 0.0
    ensures a * d <= b * d
  {
    assert b * d - a * d == (b - a) * d;
  }

  /** Multiplying reals by a positive factor keeps the strict order. */
  lemma MulLt(a: real, b: real, d: real)
    requires a < b && d > 0.0
    ensures a * d < b * d
  {
    assert b * d - a * d == (b - a) * d;
  }

  lemma DivSelf(x: real)
    requires x != 0.0
    ensures x / x == 1.0
  {
  }

  /** Integer sum, as the 16-bit downmix accumulates it. */
  function IntSum(s: seq<int>): (total: int)
  {
    if |s| == 0 then 0 else IntSum(s[..|s| - 1]) + s[|s| - 1]
  }

  lemma {:induction false} IntSumBounds(s: seq<int>, lo: int, hi: int)
    requires forall i :: 0 <= i < |s| ==> lo <= s[i] <= hi
    ensures |s| * lo <= IntSum(s) <= |s| * hi
  {
    if |s| > 0 {
      var n := |s| - 1;
      IntSumBounds(s[..n], lo, hi);
      assert IntSum(s) == IntSum(s[..n]) + s[n];
      assert |s| * lo == n * lo + lo && |s| * hi == n * hi + hi;
    }
  }
}

=== FILE: renderer.dfy ===
/** The render worker's state (`Renderer`): the latest band vector, the
    peak-hold values, the viewport size and the last completed frame, with
    `setBands`, `setViewportSize` and one render tick (`renderFrame`).

    A frame is modelled by the geometry of what is drawn: for every bar its
    left edge, width, top row and peak-indicator row. Colours and pixels are
    not modelled. The integer layout follows C++ `int` arithmetic: `/`
    truncates toward zero and float-to-int casts drop the fraction. */
module Rendering {
  import opened Numerics

  const InitialBandCount: nat := 20
  const PeakDecay: real := 0.02
  /** Rows kept free above the tallest bar. */
  const TopMargin: int := 10
  /** The gap is the width divided by 20 per bar. */
  const GapDivisor: int := 20

  datatype Size = Size(width: int, height: int)

  /** One drawn bar: columns [x, x + width], filled from row `top` down to
      the bottom, peak indicator on row `peakY`. */
  datatype Bar = Bar(x: int, width: int, top: int, peakY: int)

  datatype Frame = Frame(size: Size, bars: seq<Bar>)

  datatype State = State(bands: seq<real>, peaks: seq<real>, viewSize: Size, frame: Frame)

  function Blank(size: Size): (f: Frame)
    ensures f.size == size && f.bars == []
  {
    Frame(size, [])
  }

  /** The constructor: 20 zero bands, 20 zero peaks, an 800x400 viewport
      and a blank frame of that size. */
  function Init(): (s: State)
    ensures |s.bands| == InitialBandCount && |s.peaks| == InitialBandCount
    ensures forall i :: 0 <= i < InitialBandCount ==> s.bands[i] == 0.0 && s.peaks[i] == 0.0
    ensures s.viewSize == Size(800, 400) && s.frame == Blank(s.viewSize)
  {
    State(Zeros(InitialBandCount), Zeros(InitialBandCount), Size(800, 400), Blank(Size(800, 400)))
  }

  /** `setBands`: the bands are replaced; the peaks restart from zero
      exactly when the band count changes. */
  function SetBands(s: State, bands: seq<real>): (r: State)
    ensures r.bands == bands && r.viewSize == s.viewSize && r.frame == s.frame
    ensures |r.peaks| == |bands|
    ensures |s.peaks| == |bands| ==> r.peaks == s.peaks
    ensures |s.peaks| != |bands| ==> forall i :: 0 <= i < |bands| ==> r.peaks[i] == 0.0
  {
    var peaks := if |s.peaks| != |bands| then Zeros(|bands|) else s.peaks;
    s.(bands := bands, peaks := peaks)
  }

  /** `setViewportSize`: a new, strictly positive size replaces the old one
      and resets the frame to a blank one of that size; any other request
      leaves the state as it is. */
  function SetViewportSize(s: State, size: Size): (r: State)
    ensures r.bands == s.bands && r.peaks == s.peaks
    ensures size != s.viewSize && size.width > 0 && size.height > 0 ==>
              r.viewSize == size && r.frame == Blank(size)
    ensures size == s.viewSize || size.width <= 0 || size.height <= 0 ==> r == s
    ensures r.viewSize == size <==> s.viewSize == size || (size.width > 0 && size.height > 0)
  {
    if size != s.viewSize && size.width > 0 && size.height > 0 then
      s.(viewSize := size, frame := Blank(size))
    else
      s
  }

  /** Repeating a resize changes nothing more. */
  lemma SetViewportSizeIdempotent(s: State, size: Size)
    ensures SetViewportSize(SetViewportSize(s, size), size) == SetViewportSize(s, size)
  {
  }

  /** Resizing never makes a positive viewport degenerate. */
  lemma SetViewportSizeKeepsPositive(s: State, size: Size)
    requires s.viewSize.width > 0 && s.viewSize.height > 0
    ensures SetViewportSize(s, size).viewSize.width > 0 && SetViewportSize(s, size).viewSize.height > 0
  {
  }

  /** Space between bars: the width divided by 20 per bar, rounded down,
      but at least one column. */
  function Gap(width: int, numBars: int): (g: int)
    requires numBars >= 1
    ensures g >= 1
    ensures width >= numBars * GapDivisor ==>
              g * (numBars * GapDivisor) <= width < (g + 1) * (numBars * GapDivisor)
    ensures width < numBars * GapDivisor ==> g == 1
  {
    var q := TruncDiv(width, numBars * GapDivisor);
    MaxInt(1, q)
  }

  /** Bar width: the room left after the gaps, shared evenly, but at least
      two columns. Whenever bars of three columns fit, it is the largest
      width that fits. */
  function BarWidth(width: int, numBars: int, gap: int): (bw: int)
    requires numBars >= 1
    ensures bw >= 2
    ensures width - (numBars + 1) * gap >= 3 * numBars ==> bw > 2
    ensures bw > 2 ==>
              bw * numBars + (numBars + 1) * gap <= width < (bw + 1) * numBars + (numBars + 1) * gap
  {
    var q := TruncDiv(width - (numBars + 1) * gap, numBars);
    MaxInt(2, q)
  }

  /** The default 800-column viewport with 20 bands: a 2-column gap and
      37-column bars. */
  lemma DefaultLayout()
    ensures Gap(800, 20) == 2 && BarWidth(800, 20, 2) == 37
  {
  }

  /** Left edge of bar i: the first bar starts one gap in, and each bar
      starts one bar width and one gap after the previous one. */
  function BarX(i: int, gap: int, barWidth: int): (x: int)
    ensures i == 0 ==> x == gap
    ensures x + barWidth + gap == gap + (i + 1) * (barWidth + gap)
  {
    gap + i * (barWidth + gap)
  }

  /** `static_cast<int>(v * (h - 10))`: for a non-negative scaled value,
      the whole rows it covers. */
  function BarHeight(v: real, h: int): (bh: int)
    ensures v * (h - TopMargin) as real >= 0.0 ==>
              0 <= bh && bh as real <= v * (h - TopMargin) as real < bh as real + 1.0
  {
    TruncToInt(v * (h - TopMargin) as real)
  }

  /** A larger value never gives a lower bar. */
  lemma BarHeightMonotone(v: real, w: real, h: int)
    requires 0.0 <= v <= w && h >= TopMargin
    ensures BarHeight(v, h) <= BarHeight(w, h)
  {
    var room := (h - TopMargin) as real;
    var a, c := v * room, w * room;
    MulLe(0.0, v, room);
    MulLe(v, w, room);
    assert BarHeight(v, h) == TruncToInt(a) && BarHeight(w, h) == TruncToInt(c);
    assert TruncToInt(a) as real <= a && c < TruncToInt(c) as real + 1.0;
  }

  /** Bars are laid out left to right: every bar ends at least one gap
      before any later bar starts. */
  lemma BarsSeparated(i: nat, j: nat, gap: int, barWidth: int)
    requires i < j && gap >= 1 && barWidth >= 2
    ensures BarX(i, gap, barWidth) + barWidth + gap <= BarX(j, gap, barWidth)
    ensures BarX(i, gap, barWidth) < BarX(j, gap, barWidth)
  {
    var step := barWidth + gap;
    assert BarX(j, gap, barWidth) - BarX(i, gap, barWidth) == (j - i) * step;
    MulMonotone(1, j - i, step);
  }

  /** A value in [0, 1] fills at most the viewport height less the top
      margin, so a bar never reaches the top 10 rows. */
  lemma BarHeightBounds(v: real, h: int)
    requires 0.0 <= v <= 1.0 && h >= TopMargin
    ensures 0 <= BarHeight(v, h) <= h - TopMargin
    ensures h - BarHeight(v, h) >= TopMargin
  {
    var room := (h - TopMargin) as real;
    assert 0.0 <= v * room <= room by {
      assert v * room <= 1.0 * room;
    }
    assert BarHeight(v, h) as real <= room;
  }

  /** One peak-hold step: decay by 0.02, then lift to the current band. */
  function DecayPeak(peak: real, band: real): (p: real)
    ensures p >= band && p >= peak - PeakDecay
    ensures p == band || p == peak - PeakDecay
  {
    MaxReal(peak - PeakDecay, band)
  }

  function DecayPeaks(peaks: seq<real>, bands: seq<real>): (r: seq<real>)
    requires |peaks| == |bands|
    ensures |r| == |bands|
    ensures forall i :: 0 <= i < |r| ==> r[i] == DecayPeak(peaks[i], bands[i])
  {
    seq(|bands|, i requires 0 <= i < |bands| => DecayPeak(peaks[i], bands[i]))
  }

  /** Bar i of a frame h rows high: the filled part starts `BarHeight`
      rows above the bottom; the peak indicator sits at or above it when the
      peak is at least the band. */
  function DrawBar(i: nat, v: real, peak: real, gap: int, barWidth: int, h: int): (b: Bar)
    ensures b.x == BarX(i, gap, barWidth) && b.width == barWidth
    ensures b.top == h - BarHeight(v, h) && b.peakY == h - BarHeight(peak, h)
    ensures 0.0 <= v <= peak && h >= TopMargin ==> b.peakY <= b.top
  {
    var b := Bar(BarX(i, gap, barWidth), barWidth, h - BarHeight(v, h), h - BarHeight(peak, h));
    if 0.0 <= v <= peak && h >= TopMargin then
      BarHeightMonotone(v, peak, h);
      b
    else
      b
  }

  ghost predicate AllInUnit(s: seq<real>) {
    forall i :: 0 <= i < |s| ==> 0.0 <= s[i] <= 1.0
  }

  /** One render tick (`renderFrame`). With no bands a blank frame is
      published and the peaks are left alone. Otherwise the peaks are
      brought to the band count, decayed toward the bands, and one bar per
      band is laid out. */
  function Tick(s: State): (r: State)
    ensures r.bands == s.bands && r.viewSize == s.viewSize
    ensures r.frame.size == s.viewSize && |r.frame.bars| == |s.bands|
    ensures |s.bands| == 0 ==> r.peaks == s.peaks && r.frame == Blank(s.viewSize)
    ensures |s.bands| > 0 ==>
              r.peaks == DecayPeaks(if |s.peaks| == |s.bands| then s.peaks else Zeros(|s.bands|), s.bands)
    ensures |s.bands| > 0 ==>
              var w := s.viewSize.width;
              var gap := Gap(w, |s.bands|);
              forall i :: 0 <= i < |s.bands| ==>
                r.frame.bars[i] == DrawBar(i, s.bands[i], r.peaks[i], gap, BarWidth(w, |s.bands|, gap), s.viewSize.height)
    ensures forall i :: 0 <= i < |s.bands| ==>
              && r.peaks[i] >= s.bands[i]
              && (|s.peaks| == |s.bands| ==> r.peaks[i] >= s.peaks[i] - PeakDecay)
  {
    var n := |s.bands|;
    if n == 0 then
      s.(frame := Blank(s.viewSize))
    else
      var w := s.viewSize.width;
      var h := s.viewSize.height;
      var gap := Gap(w, n);
      var bw := BarWidth(w, n, gap);
      var peaks0 := if |s.peaks| != n then Zeros(n) else s.peaks;
      var peaks := DecayPeaks(peaks0, s.bands);
      var bars := seq(n, i requires 0 <= i < n => DrawBar(i, s.bands[i], peaks[i], gap, bw, h));
      s.(peaks := peaks, frame := Frame(s.viewSize, bars))
  }

  /** The bars of a tick's frame never overlap (each ends at least one gap
      before the next starts), and with band values in [0, 1] and a
      viewport at least 10 rows high no bar reaches the top 10 rows. */
  lemma TickLayout(s: State)
    ensures forall i, j :: 0 <= i < j < |Tick(s).frame.bars| ==>
              Tick(s).frame.bars[i].x + Tick(s).frame.bars[i].width + 1 <= Tick(s).frame.bars[j].x
    ensures s.viewSize.height >= TopMargin && AllInUnit(s.bands) ==>
              forall i :: 0 <= i < |Tick(s).frame.bars| ==> 0 <= Tick(s).frame.bars[i].top - TopMargin
  {
    var n := |s.bands|;
    if n > 0 {
      var w := s.viewSize.width;
      var h := s.viewSize.height;
      var gap := Gap(w, n);
      var bw := BarWidth(w, n, gap);
      var bars := Tick(s).frame.bars;
      var peaks := Tick(s).peaks;
      assert forall i :: 0 <= i < n ==> bars[i] == DrawBar(i, s.bands[i], peaks[i], gap, bw, h);
      LayoutFacts(bars, s.bands, peaks, gap, bw, h);
    }
  }

  lemma LayoutFacts(bars: seq<Bar>, bands: seq<real>, peaks: seq<real>, gap: int, bw: int, h: int)
    requires |bands| == |peaks| == |bars| && gap >= 1 && bw >= 2
    requires forall i :: 0 <= i < |bars| ==> bars[i] == DrawBar(i, bands[i], peaks[i], gap, bw, h)
    ensures forall i, j :: 0 <= i < j < |bars| ==> bars[i].x + bars[i].width < bars[j].x
    ensures h >= TopMargin && AllInUnit(bands) ==> forall i :: 0 <= i < |bars| ==> bars[i].top >= TopMargin
  {
    forall i, j | 0 <= i < j < |bars|
      ensures bars[i].x + bars[i].width < bars[j].x
    {
      BarsSeparated(i, j, gap, bw);
    }
    if h >= TopMargin && AllInUnit(bands) {
      forall i | 0 <= i < |bars|
        ensures bars[i].top >= TopMargin
      {
        BarHeightBounds(bands[i], h);
      }
    }
  }

  /** k render ticks in a row. */
  function Ticks(s: State, k: nat): (r: State)
    ensures r.bands == s.bands && r.viewSize == s.viewSize
    ensures |s.peaks| == |s.bands| ==> |r.peaks| == |s.bands|
    decreases k
  {
    if k == 0 then s else Ticks(Tick(s), k - 1)
  }

  /** With every band silent, each peak falls by 0.02 per tick until it
      reaches zero and then stays there. */
  lemma {:induction false} SilentDecay(s: State, k: nat)
    requires |s.bands| >= 1 && |s.peaks| == |s.bands|
    requires forall i :: 0 <= i < |s.bands| ==> s.bands[i] == 0.0 && s.peaks[i] >= 0.0
    ensures Ticks(s, k).bands == s.bands && |Ticks(s, k).peaks| == |s.bands|
    ensures forall i :: 0 <= i < |s.bands| ==>
              Ticks(s, k).peaks[i] == MaxReal(0.0, s.peaks[i] - PeakDecay * k as real)
    decreases k
  {
    if k > 0 {
      var t := Tick(s);
      assert t.peaks == DecayPeaks(s.peaks, s.bands);
      assert forall i :: 0 <= i < |s.bands| ==> t.peaks[i] == MaxReal(s.peaks[i] - PeakDecay, 0.0);
      SilentDecay(t, k - 1);
      assert Ticks(s, k) == Ticks(t, k - 1);
    }
  }

  /** A full-scale band lifts its peak to 1. */
  lemma FullScaleLatches(s: State)
    requires |s.bands| >= 1 && |s.peaks| == |s.bands|
    requires forall i :: 0 <= i < |s.bands| ==> s.bands[i] == 1.0 && 0.0 <= s.peaks[i] <= 1.0
    ensures forall i :: 0 <= i < |s.bands| ==> Tick(s).peaks[i] == 1.0
  {
    var t := Tick(s);
    forall i | 0 <= i < |s.bands|
      ensures t.peaks[i] == 1.0
    {
      assert t.peaks[i] == DecayPeak(s.peaks[i], 1.0);
    }
  }

  /** A band at full scale for one tick and silent afterwards: k ticks
      after the full-scale one the peak is max(0, 1 - 0.02 k). */
  lemma FullScaleThenSilence(s: State, k: nat, i: nat)
    requires |s.bands| >= 1 && |s.peaks| == |s.bands| && i < |s.bands|
    requires forall j :: 0 <= j < |s.bands| ==> s.bands[j] == 1.0 && 0.0 <= s.peaks[j] <= 1.0
    ensures Ticks(SetBands(Tick(s), Zeros(|s.bands|)), k).peaks[i] == MaxReal(0.0, 1.0 - PeakDecay * k as real)
  {
    FullScaleLatches(s);
    var z := SetBands(Tick(s), Zeros(|s.bands|));
    assert forall j :: 0 <= j < |z.bands| ==> z.bands[j] == 0.0 && z.peaks[j] == 1.0;
    SilentDecay(z, k);
  }

  /** The host-side operations on the renderer. */
  datatype Op = SetBandsOp(bands: seq<real>) | ResizeOp(size: Size) | TickOp

  function Apply(s: State, op: Op): (r: State) {
    match op
    case SetBandsOp(b) => SetBands(s, b)
    case ResizeOp(size) => SetViewportSize(s, size)
    case TickOp => Tick(s)
  }

  function Run(s: State, ops: seq<Op>): (r: State)
    decreases |ops|
  {
    if |ops| == 0 then s else Run(Apply(s, ops[0]), ops[1..])
  }

  /** What holds of every state the renderer reaches when the bands it is
      given are in [0, 1], as the analysis publishes them. */
  ghost predicate Good(s: State) {
    && |s.peaks| == |s.bands|
    && s.viewSize.width > 0 && s.viewSize.height > 0
    && AllInUnit(s.bands) && AllInUnit(s.peaks)
  }

  ghost predicate UnitBandsOnly(ops: seq<Op>) {
    forall i :: 0 <= i < |ops| && ops[i].SetBandsOp? ==> AllInUnit(ops[i].bands)
  }

  /** Peaks stay parallel to the bands and within [0, 1], and the viewport
      stays positive, along any run of operations from the initial state. */
  lemma {:induction false} RunKeepsGood(s: State, ops: seq<Op>)
    requires Good(s) && UnitBandsOnly(ops)
    ensures Good(Run(s, ops))
    decreases |ops|
  {
    if |ops| > 0 {
      var s' := Apply(s, ops[0]);
      assert Good(s') by {
        if ops[0].TickOp? && |s.bands| > 0 {
          forall i | 0 <= i < |s.bands|
            ensures 0.0 <= s'.peaks[i] <= 1.0
          {
            assert s'.peaks[i] == DecayPeak(s.peaks[i], s.bands[i]);
          }
        }
      }
      assert UnitBandsOnly(ops[1..]) by {
        forall i | 0 <= i < |ops[1..]| && ops[1..][i].SetBandsOp?
          ensures AllInUnit(ops[1..][i].bands)
        {
          assert ops[1..][i] == ops[i + 1];
        }
      }
      RunKeepsGood(s', ops[1..]);
    }
  }

  lemma ReachableFromInit(ops: seq<Op>)
    requires UnitBandsOnly(ops)
    ensures Good(Run(Init(), ops))
  {
    RunKeepsGood(Init(), ops);
  }
}

=== FILE: ring_buffer.dfy ===
/** The sample ring buffer that hands mono samples from the capture side to
    the analysis side.

    Three layers:
    - the abstract FIFO, a `seq<real>` of unread samples (`Ring.Contents`);
    - `Ring`, a value holding the N+1 storage slots and the head/tail
      indices that advance modulo N+1, with each buffer operation as a pure
      function, proved to act on `Contents` as a bounded FIFO;
    - `RingBuffer`, the class over an array, whose methods are proved to
      compute exactly what the `Ring` functions compute.
    The buffer's mutex is not modelled: every operation is one atomic step. */
module RingBuffers {
  import opened Numerics

  datatype Ring = Ring(slots: seq<real>, head: nat, tail: nat) {

    /** Storage is never empty and both indices address a slot. */
    predicate Valid() {
      |slots| >= 1 && head < |slots| && tail < |slots|
    }

    /** Number of samples the buffer can hold: one slot stays unused so
        that a full buffer differs from an empty one. */
    function Capacity(): (n: nat)
      requires Valid()
      ensures n < |slots|
    {
      |slots| - 1
    }

    /** Steps needed to walk from `from` to `to` around the storage. */
    function Distance(from: nat, to: nat): (d: nat)
      requires Valid() && from < |slots| && to < |slots|
      ensures d < |slots| && (from + d) % |slots| == to
    {
      var c := |slots|;
      WrapOnce(to + c - from, c);
      WrapOnce(to + c, c);
      (to + c - from) % c
    }

    function AvailableToRead(): (n: nat)
      requires Valid()
      ensures n <= Capacity() && (tail + n) % |slots| == head
    {
      Distance(tail, head)
    }

    function AvailableToWrite(): (n: nat)
      requires Valid()
      ensures n <= Capacity()
      ensures n == 0 <==> (head + 1) % |slots| == tail
    {
      DistanceCases(tail, head);
      WrapOnce(head + 1, |slots|);
      |slots| - 1 - Distance(tail, head)
    }

    /** The abstract FIFO: the unread samples, oldest first. */
    function Contents(): (q: seq<real>)
      requires Valid()
      ensures |q| == AvailableToRead()
    {
      seq(AvailableToRead(), k requires 0 <= k < AvailableToRead() => slots[(tail + k) % |slots|])
    }

    /** One iteration of the write loop: store at head, advance head. */
    function Push(x: real): (r: Ring)
      requires Valid()
      ensures r.Valid() && |r.slots| == |slots| && r.tail == tail
      ensures r.slots[head] == x
      ensures forall i :: 0 <= i < |slots| && i != head ==> r.slots[i] == slots[i]
    {
      Ring(slots[head := x], (head + 1) % |slots|, tail)
    }

    /** One iteration of the read loop: take the slot at tail, advance tail. */
    function Pop(): (r: (real, Ring))
      requires Valid()
      ensures r.0 == slots[tail]
      ensures r.1.Valid() && r.1.slots == slots && r.1.head == head
    {
      (slots[tail], Ring(slots, head, (tail + 1) % |slots|))
    }

    /** The write loop run over all of `xs`, which must fit. */
    function WriteAll(xs: seq<real>): (r: Ring)
      requires Valid() && |xs| <= AvailableToWrite()
      ensures r.Valid() && |r.slots| == |slots|
      ensures r.Contents() == Contents() + xs
      decreases |xs|
    {
      if |xs| == 0 then this
      else
        PushAppends(xs[0]);
        Push(xs[0]).WriteAll(xs[1..])
    }

    /** The read loop run n times, which must not exceed what is readable. */
    function ReadAll(n: nat): (r: (Ring, seq<real>))
      requires Valid() && n <= AvailableToRead()
      ensures r.0.Valid() && r.0.slots == slots && r.0.head == head
      ensures r.1 == Contents()[..n] && r.0.Contents() == Contents()[n..]
      decreases n
    {
      if n == 0 then (this, [])
      else
        PopTakesOldest();
        var (x, rest) := Pop();
        var (r', xs) := rest.ReadAll(n - 1);
        (r', [x] + xs)
    }

    /** `write`: an empty request changes nothing; otherwise as many
        samples as fit are stored and the rest are dropped. Returns the new
        ring and the number of samples stored. */
    function Write(data: seq<real>): (r: (Ring, nat))
      requires Valid()
      ensures r.0.Valid() && |r.0.slots| == |slots|
      ensures r.1 == MinInt(|data|, AvailableToWrite())
      ensures r.0.Contents() == Contents() + data[..r.1]
      ensures |data| == 0 ==> r.0 == this
    {
      if |data| == 0 then (this, 0)
      else
        var writable := |slots| - 1 - Distance(tail, head);
        var toWrite := if |data| < writable then |data| else writable;
        (WriteAll(data[..toWrite]), toWrite)
    }

    /** `read`: removes and returns at most `maxCount` of the oldest samples. */
    function Read(maxCount: nat): (r: (Ring, seq<real>))
      requires Valid()
      ensures r.0.Valid() && |r.0.slots| == |slots|
      ensures |r.1| == MinInt(maxCount, AvailableToRead())
      ensures r.1 == Contents()[..|r.1|] && r.0.Contents() == Contents()[|r.1|..]
      ensures maxCount == 0 ==> r.0 == this
    {
      if maxCount == 0 then (this, [])
      else
        var readable := Distance(tail, head);
        var toRead := if maxCount < readable then maxCount else readable;
        ReadAll(toRead)
    }

    /** `clear`: both indices return to slot 0; the slots keep their values. */
    function Clear(): (r: Ring)
      requires Valid()
      ensures r.Valid() && |r.slots| == |slots| && r.Capacity() == Capacity()
      ensures r.Contents() == [] && r.AvailableToWrite() == Capacity()
    {
      Ring(slots, 0, 0)
    }

    /** Storing one more sample when there is room appends it to the FIFO
        and leaves every unread sample where it was. */
    lemma PushAppends(x: real)
      requires Valid() && AvailableToWrite() > 0
      ensures Push(x).Valid() && |Push(x).slots| == |slots|
      ensures Push(x).AvailableToWrite() == AvailableToWrite() - 1
      ensures Push(x).Contents() == Contents() + [x]
    {
      var c := |slots|;
      var d := AvailableToRead();
      var p := Push(x);
      DistanceCases(tail, head);
      WrapOnce(head + 1, c);
      DistanceCases(p.tail, p.head);
      assert p.AvailableToRead() == d + 1;
      forall k | 0 <= k < d + 1
        ensures p.Contents()[k] == (Contents() + [x])[k]
      {
        WrapOnce(tail + k, c);
      }
    }

    /** Taking one sample from a non-empty buffer yields the oldest one and
        leaves the rest in order. */
    lemma PopTakesOldest()
      requires Valid() && AvailableToRead() > 0
      ensures Pop().1.Valid() && Pop().1.slots == slots && Pop().1.head == head
      ensures Pop().0 == Contents()[0]
      ensures Pop().1.Contents() == Contents()[1..]
    {
      var c := |slots|;
      var d := AvailableToRead();
      var p := Pop().1;
      DistanceCases(tail, head);
      WrapOnce(tail + 1, c);
      DistanceCases(p.tail, p.head);
      assert p.AvailableToRead() == d - 1;
      WrapOnce(tail, c);
      forall k | 0 <= k < d - 1
        ensures p.Contents()[k] == Contents()[k + 1]
      {
        WrapOnce(p.tail + k, c);
        WrapOnce(tail + k + 1, c);
      }
    }

    /** Reading n + 1 samples is reading n and then taking one more: the
        order in which the read loop runs. */
    lemma {:induction false} ReadAllSnoc(n: nat)
      requires Valid() && n < AvailableToRead()
      ensures ReadAll(n).0.AvailableToRead() > 0
      ensures ReadAll(n + 1).0 == ReadAll(n).0.Pop().1
      ensures ReadAll(n + 1).1 == ReadAll(n).1 + [ReadAll(n).0.Pop().0]
      decreases n
    {
      PopTakesOldest();
      if n > 0 {
        Pop().1.ReadAllSnoc(n - 1);
        assert [Pop().0] + (Pop().1.ReadAll(n - 1).1 + [ReadAll(n).0.Pop().0])
            == ([Pop().0] + Pop().1.ReadAll(n - 1).1) + [ReadAll(n).0.Pop().0];
      }
    }

    /** The modulo distance, with the wrap written as a case split. */
    lemma DistanceCases(from: nat, to: nat)
      requires Valid() && from < |slots| && to < |slots|
      ensures Distance(from, to) == if from <= to then to - from else to + |slots| - from
    {
      WrapOnce(to + |slots| - from, |slots|);
    }
  }

  /** Reducing a value below twice the modulus subtracts it at most once. */
  lemma WrapOnce(a: int, m: int)
    requires m > 0 && 0 <= a < 2 * m
    ensures a % m == if a < m then a else a - m
  {
    if a >= m {
      assert a == m + (a - m);
    }
  }

  /** The constructor: `capacitySamples + 1` zeroed slots, both indices 0. */
  function Create(capacitySamples: nat): (r: Ring)
    ensures r.Valid() && |r.slots| == capacitySamples + 1
    ensures r.Capacity() == capacitySamples
    ensures r.Contents() == [] && r.AvailableToWrite() == capacitySamples
  {
    Ring(Zeros(capacitySamples + 1), 0, 0)
  }

  /** In every valid state the readable and writable counts add up to the
      capacity, so neither can exceed it. */
  lemma CountsAddUp(r: Ring)
    requires r.Valid()
    ensures r.AvailableToRead() + r.AvailableToWrite() == r.Capacity()
    ensures r.AvailableToRead() <= r.Capacity()
  {
  }

  /** Every state reachable from `Create` by the buffer's operations. */
  datatype Op = WriteOp(data: seq<real>) | ReadOp(maxCount: nat) | ClearOp

  function Apply(r: Ring, op: Op): (r': Ring)
    requires r.Valid()
    ensures r'.Valid() && |r'.slots| == |r.slots|
  {
    match op
    case WriteOp(data) => r.Write(data).0
    case ReadOp(n) => r.Read(n).0
    case ClearOp => r.Clear()
  }

  function Run(r: Ring, ops: seq<Op>): (r': Ring)
    requires r.Valid()
    ensures r'.Valid() && |r'.slots| == |r.slots|
    decreases |ops|
  {
    if |ops| == 0 then r else Run(Apply(r, ops[0]), ops[1..])
  }

  /** Whatever operations run after construction with capacity N, the
      storage keeps N+1 slots, head and tail stay below N+1, and the
      readable and writable counts add up to N. */
  lemma {:induction false} ReachableInvariant(n: nat, ops: seq<Op>)
    ensures Run(Create(n), ops).Valid()
    ensures |Run(Create(n), ops).slots| == n + 1
    ensures Run(Create(n), ops).head < n + 1 && Run(Create(n), ops).tail < n + 1
    ensures Run(Create(n), ops).AvailableToRead() + Run(Create(n), ops).AvailableToWrite() == n
  {
  }

  /** Capacity 4: writing five samples stores four and drops the fifth;
      reading two yields the first two; two remain readable. */
  lemma WorkedExample()
    ensures Create(4).Write([1.0, 2.0, 3.0, 4.0, 5.0]).1 == 4
    ensures Create(4).Write([1.0, 2.0, 3.0, 4.0, 5.0]).0.Read(2).1 == [1.0, 2.0]
    ensures Create(4).Write([1.0, 2.0, 3.0, 4.0, 5.0]).0.Read(2).0.AvailableToRead() == 2
  {
    var w := Create(4).Write([1.0, 2.0, 3.0, 4.0, 5.0]);
    assert w.0.Contents() == [1.0, 2.0, 3.0, 4.0];
    var r := w.0.Read(2);
    assert r.1 == [1.0, 2.0, 3.0, 4.0][..2];
  }

  /** The buffer as a mutable object over an array. Each method is one
      critical section and is proved to compute what `Ring` computes. */
  class RingBuffer {
    const storage: array<real>
    const storageSize: nat
    var head: nat
    var tail: nat

    ghost predicate Valid()
      reads this
    {
      storage.Length == storageSize && storageSize >= 1
      && head < storageSize && tail < storageSize
    }

    /** The value this object currently represents. */
    function State(): (r: Ring)
      reads this, storage
    {
      Ring(storage[..], head, tail)
    }

    constructor(capacitySamples: nat)
      ensures Valid() && State() == Create(capacitySamples)
      ensures fresh(storage)
    {
      storage := new real[capacitySamples + 1](_ => 0.0);
      storageSize := capacitySamples + 1;
      head, tail := 0, 0;
      new;
      assert storage[..] == Zeros(capacitySamples + 1);
    }

    function Capacity(): (c: nat)
      reads this, storage
      requires Valid()
      ensures c == State().Capacity()
    {
      storageSize - 1
    }

    method Clear()
      requires Valid()
      modifies this
      ensures Valid() && State() == old(State()).Clear()
    {
      head, tail := 0, 0;
    }

    function DistanceNoLock(from: nat, to: nat): (d: nat)
      reads this, storage
      requires Valid() && from < storageSize && to < storageSize
      ensures d == State().Distance(from, to)
    {
      (to + storageSize - from) % storageSize
    }

    method AvailableToRead() returns (n: nat)
      requires Valid()
      ensures n == State().AvailableToRead()
    {
      n := DistanceNoLock(tail, head);
    }

    method AvailableToWrite() returns (n: nat)
      requires Valid()
      ensures n == State().AvailableToWrite()
    {
      n := storageSize - 1 - DistanceNoLock(tail, head);
    }

    method Write(data: seq<real>) returns (written: nat)
      requires Valid()
      modifies this, storage
      ensures Valid() && (State(), written) == old(State()).Write(data)
      ensures State().Contents() == old(State().Contents()) + data[..written]
    {
      if |data| == 0 {
        return 0;
      }
      var writable := storageSize - 1 - DistanceNoLock(tail, head);
      var toWrite := if |data| < writable then |data| else writable;
      StoreAll(data[..toWrite]);
      written := toWrite;
    }

    /** The write loop: store each sample at head and advance head. */
    method StoreAll(xs: seq<real>)
      requires Valid() && |xs| <= State().AvailableToWrite()
      modifies this, storage
      ensures Valid() && State() == old(State()).WriteAll(xs)
    {
      ghost var target := State().WriteAll(xs);
      var i := 0;
      while i < |xs|
        invariant 0 <= i <= |xs| && Valid()
        invariant State().Valid() && |xs| - i <= State().AvailableToWrite()
        invariant State().WriteAll(xs[i..]) == target
      {
        ghost var before := State();
        before.PushAppends(xs[i]);
        assert xs[i..][1..] == xs[i + 1..];
        storage[head] := xs[i];
        assert storage[..] == before.slots[head := xs[i]];
        head := (head + 1) % storageSize;
        assert State() == before.Push(xs[i]);
        i := i + 1;
      }
      assert xs[|xs|..] == [];
    }

    method Read(maxCount: nat) returns (out: seq<real>)
      requires Valid()
      modifies this
      ensures Valid() && (State(), out) == old(State()).Read(maxCount)
      ensures out == old(State().Contents())[..|out|]
    {
      if maxCount == 0 {
        return [];
      }
      var readable := DistanceNoLock(tail, head);
      var toRead := if maxCount < readable then maxCount else readable;
      assert State().Distance(tail, head) == readable;
      out := TakeAll(toRead);
    }

    /** The read loop: take the sample at tail and advance tail, n times. */
    method TakeAll(n: nat) returns (out: seq<real>)
      requires Valid() && n <= State().AvailableToRead()
      modifies this
      ensures Valid() && (State(), out) == old(State()).ReadAll(n)
    {
      ghost var start := State();
      out := [];
      var i := 0;
      while i < n
        invariant 0 <= i <= n && Valid()
        invariant State() == start.ReadAll(i).0 && out == start.ReadAll(i).1
      {
        start.ReadAllSnoc(i);
        out := out + [storage[tail]];
        tail := (tail + 1) % storageSize;
        i := i + 1;
      }
    }
  }
}
